=== FILE: README.md ===
# Time Management Toolkit — a Dafny model of its logic

The Time Management Toolkit is a React application. This project models the logic that sits
inside its event handlers and serialisers, as immutable Dafny datatypes and pure functions:

- **Environment editor** (`EnviromentEditor.js`, modules `EnvEditor`, `EnvFile`,
  `DeployCommands`). The variable object is an insertion-ordered sequence of entries with
  pairwise different keys (`EnvVars`). It supports `updateEnvVar`, `addCustomVar` and
  `removeVar`. On top of it sit two serialisers:
  - the categorised `.env.local` text, modelled as a list of lines rendered with a newline
    after each;
  - the newline-joined `heroku config:set KEY="VALUE"` commands.

  Each serialiser has a reader (`ParseEnvFile`, `ParseHerokuCommands`). The round trip
  through it is proved for keys and values that the line formats can carry, and lemmas show
  how keys outside that set are misread.
- **Decision Magic** (`src/components/DecisionMagic.js`, module `DecisionMagic`): the magic
  8-ball, the task roulette (add, remove, spin), the coin, the die, the focus mantras and the
  exported results text. Every `Math.random()` draw is a parameter of type `Draw`, a real in
  [0, 1). `Math.floor` is the real floor. JavaScript's `%` on numbers is written out as a
  remainder truncated toward zero (`FloatRem`).
- **Saying No decision tree** (`src/components/sayingno.js`, module `SayingNo`):
  - the two answers and the buttons each state renders;
  - reset;
  - runs of clicks, with their invariant and its converse (every state that satisfies the
    invariant is reachable);
  - the verdict panels.
- **Tab bar** (`src/components/App.js`, module `AppTabs`): the tab table, the active tab, the
  component lookup and the highlighted button.

Shared pieces:

- `Wrappers` holds `Option`.
- `Seqs` holds sequence facts: `IndexOf`, `Distinct`, `FlatMap`, the layout of
  concatenated blocks (`Concat`, `Offset`), and `WithoutIndex` for
  `filter((_, i) => i !== index)`.
- `Toolkit` holds the application name that the file title, the export credit and the page
  heading share.
- `Text` holds the JavaScript string operations the code relies on: `join`, `startsWith`,
  `trim` (with the ECMAScript whitespace set) and the decimal numerals of template literals.
  The code never splits a string. `Text.Split` exists only for the model's readers of the
  generated texts: `EnvFile.ParseEnvFile`, `DeployCommands.ParseHerokuCommands` and
  the exported text read back in `DecisionMagic.ExportReadsBack`. `Text` also proves the
  inverses that those readers use.

## Model

| member | source | states |
|---|---|---|
| EnvEditor.Lookup | EnviromentEditor.js:77-78 | for a category key, `envVars[key]` is undefined exactly when the object has no such own key; a found value is the entry stored under that key |
| EnvEditor.LookupIff | EnviromentEditor.js:92 | each own key carries one value, so looking a custom key up finds `v` exactly when the entry `(k, v)` is in the object |
| EnvEditor.UpdateVar | EnviromentEditor.js:45-50 | after `updateEnvVar(k, v)`, `k` maps to `v` and the entries are the old ones under other keys plus `(k, v)`; an existing key keeps its place, a new key goes last |
| EnvEditor.UpdateVarLookups | EnviromentEditor.js:45-50 | setting `k` leaves the value of every other key as it was |
| EnvEditor.RemoveVar | EnviromentEditor.js:62-68 | after `removeVar(k)`, `k` is absent and the entries are exactly the old ones under other keys; an existing key's entry is cut out of its place with the rest in order, and removing an absent key changes nothing |
| EnvEditor.RemoveVarOther | EnviromentEditor.js:62-68 | deleting `k` leaves the value of every other key as it was |
| EnvEditor.RemoveVarIdempotent | EnviromentEditor.js:62-68 | removing the same key twice is the same as removing it once |
| EnvEditor.RemoveThenUpdateMovesToEnd | EnviromentEditor.js:45-68 | deleting a key and setting it again moves it to the end of the enumeration order |
| EnvEditor.AddCustomVar | EnviromentEditor.js:52-60 | with an empty key or value nothing changes; otherwise the key maps to the value exactly as typed, other keys are untouched, and the form is cleared |
| EnvEditor.InitialVars | EnviromentEditor.js:4-32 | the sixteen starting variables have pairwise different keys, listed in category order |
| EnvEditor.InitialEditor | EnviromentEditor.js:4-34 | at mount a key has a value exactly when some category lists it, and the custom-variable form is empty |
| EnvEditor.FlatCategoryKeys | EnviromentEditor.js:36-43 | the six category key lists, flattened in declaration order, are the sixteen listed keys |
| EnvEditor.CategoriesDisjoint | EnviromentEditor.js:36-43 | no key is listed twice across the categories, so every key is either categorised or custom, never both |
| EnvEditor.InitialVarsCategorised | EnviromentEditor.js:4-43 | every starting variable belongs to a category, so the first file has no custom section |
| EnvFile.PresentLinesSound | EnviromentEditor.js:76-80 | every line under a heading is `KEY=VALUE` for a key of that category, carrying the value the object holds |
| EnvFile.PresentLinesComplete | EnviromentEditor.js:76-78 | every key of the category that the object holds gets its `KEY=VALUE` line |
| EnvFile.PresentLinesAppend | EnviromentEditor.js:76 | the lines follow the category's key list: the lines for `a + b` are those for `a` followed by those for `b` |
| EnvFile.PresentLinesSingle | EnviromentEditor.js:77-78 | one key yields its line exactly when the object holds it, and no line otherwise |
| EnvFile.CategorySectionAt | EnviromentEditor.js:74-82 | the block of category `i` (heading, present keys, empty line) lies among the category blocks at its start offset |
| EnvFile.SectionStartNext | EnviromentEditor.js:74-82 | the blocks come in table order: block `i + 1` begins where block `i` ends |
| EnvFile.SectionStartEnd | EnviromentEditor.js:74-82 | the last category block ends where the category part of the file ends |
| EnvFile.FileSectionAt | EnviromentEditor.js:71-82 | in the file, category `i`'s block sits right after the title, the timestamp, the empty line and the blocks of the categories before it |
| EnvFile.Unlisted | EnviromentEditor.js:85-87 | the custom keys are exactly the object's entries whose key is in no category |
| EnvFile.UnlistedAppend | EnviromentEditor.js:85-87 | the custom entries keep enumeration order: those of `a + b` are those of `a` followed by those of `b` |
| EnvFile.UnlistedSingle | EnviromentEditor.js:86 | a single entry is custom exactly when its key is in no category |
| EnvFile.CustomSectionAt | EnviromentEditor.js:85-93 | the file ends with the custom part: nothing when every key is categorised, otherwise the "Custom Variables" heading and then one `KEY=VALUE` line per custom entry, in enumeration order |
| EnvFile.FileHeadings | EnviromentEditor.js:71-94 | the comments of the file are the title, the timestamp line, every category heading in table order (even an emptied one), and "Custom Variables" exactly when some key is in no category |
| EnvFile.EnvFileHeadings | EnviromentEditor.js:71-94 | for the editor's own table, the headings are "App Configuration" to "Styling" in that order, followed by "Custom Variables" exactly when some key is uncategorised |
| EnvFile.UnlistedCount | EnviromentEditor.js:85-93 | the custom section writes each uncategorised key once and no other key |
| EnvFile.FileKeyCount | EnviromentEditor.js:74-94 | with pairwise different category keys, every key of the object is on exactly one `KEY=VALUE` line and no absent key is on any line |
| EnvFile.FileValues | EnviromentEditor.js:74-94 | every `KEY=VALUE` line carries the value the object holds for that key |
| EnvFile.EnvFileKeys | EnviromentEditor.js:74-94 | the editor's file holds each present key exactly once with its value, and nothing else |
| EnvFile.GeneratedFileShape | EnviromentEditor.js:71-96 | the generated text opens with the line `# Time Management Toolkit - Environment Variables` and ends with a newline |
| EnvFile.ParseRenderedFile | EnviromentEditor.js:71-96 | newline-terminated plain lines read back as exactly those lines |
| EnvFile.FileRoundTrip | EnviromentEditor.js:70-96 | for any category table with newline-free headings, a dotenv reader of the generated text recovers the structured file line by line, given a newline-free timestamp and entries whose keys hold no newline or `=` and do not start with `#`, and whose values hold no newline |
| EnvFile.EnvFileRoundTrip | EnviromentEditor.js:70-96 | a dotenv reader of the editor's text recovers the structured file line by line, under the same conditions on timestamp, keys and values |
| EnvFile.EnvFileReadsBack | EnviromentEditor.js:70-96 | under the same conditions, a dotenv reader finds each key exactly once with its value and no other key |
| EnvFile.KeyWithEqualsMisread | EnviromentEditor.js:52-92 | the editor stores a custom key `A=B` as typed, but its line `A=B=v` reads back as key `A` with value `B=v` |
| EnvFile.KeyWithHashMisread | EnviromentEditor.js:52-92 | the editor stores a custom key `#X` as typed, but its line `#X=v` reads back as a comment |
| DeployCommands.DeployableEntries | EnviromentEditor.js:111-112 | the sent entries are exactly those whose key starts with `REACT_APP_` or is `NODE_ENV` or `NPM_CONFIG_PRODUCTION` |
| DeployCommands.DeployableAppend | EnviromentEditor.js:110-112 | `filter` keeps enumeration order: the sent entries of `a + b` are those of `a` followed by those of `b` |
| DeployCommands.DeployableSingle | EnviromentEditor.js:111-112 | a single entry is sent exactly when its key qualifies |
| DeployCommands.Command | EnviromentEditor.js:113 | each command opens with `heroku config:set `, closes with a double quote, and is three characters (`=` and two quotes) longer than prefix, key and value |
| DeployCommands.GenerateHerokuCommands | EnviromentEditor.js:110-117 | the command text is empty exactly when no key qualifies and otherwise ends with a closing quote, not a newline |
| DeployCommands.ParseCommandOf | EnviromentEditor.js:113 | one `heroku config:set K="V"` line reads back as the entry `(K, V)` when `K` holds no `=`; the value is read literally, with no shell unquoting |
| DeployCommands.HerokuCommandsRoundTrip | EnviromentEditor.js:110-117 | reading the pasted command text back yields exactly the qualifying entries in object order, one per line, when no qualifying key holds `=` or a newline and no qualifying value holds a newline |
| DeployCommands.CommandKeyWithEqualsRejected | EnviromentEditor.js:113 | the command for a key `A=B` does not read back as a key and a quoted value |
| DeployCommands.DeployableKeys | EnviromentEditor.js:112 | `CI` and `GENERATE_SOURCEMAP` are never sent; `NODE_ENV`, `NPM_CONFIG_PRODUCTION` and every `REACT_APP_` key are |
| DecisionMagic.InitialMagic | src/components/DecisionMagic.js:5-17 | the component mounts with a blank question, so the ball refuses, and with an empty task list, so the wheel refuses; that list is clean |
| DecisionMagic.Pick | src/components/DecisionMagic.js:44 | `Math.floor(Math.random() * n)` is an index in `[0, n)`, so the response and mantra lookups are in bounds |
| DecisionMagic.PickReaches | src/components/DecisionMagic.js:101 | every index of a list is chosen by some draw |
| DecisionMagic.ShakeBall | src/components/DecisionMagic.js:35-48 | a blank or whitespace-only question changes nothing; otherwise only the answer changes, to one of the fifteen responses |
| DecisionMagic.ShakeBallReaches | src/components/DecisionMagic.js:44 | each of the fifteen responses can answer any non-blank question |
| DecisionMagic.GetMantra | src/components/DecisionMagic.js:100-103 | only the mantra changes, to the one of the ten the draw selects |
| DecisionMagic.GetMantraReaches | src/components/DecisionMagic.js:101 | each of the ten mantras can be drawn |
| DecisionMagic.CoinFlip | src/components/DecisionMagic.js:90-93 | the coin shows heads exactly when the draw is below 0.5 and tails otherwise; nothing else changes |
| DecisionMagic.CoinFlipReaches | src/components/DecisionMagic.js:91 | both heads and tails come up for some draw |
| DecisionMagic.Roll | src/components/DecisionMagic.js:96 | the roll lies between 1 and 6 |
| DecisionMagic.RollReaches | src/components/DecisionMagic.js:96 | every face from 1 to 6 can come up |
| DecisionMagic.RollDice | src/components/DecisionMagic.js:95-98 | the die text reads back as the rolled number; nothing else changes |
| DecisionMagic.AddTask | src/components/DecisionMagic.js:50-56 | blank input changes nothing; otherwise the trimmed input is appended, and the input and the previous result are cleared; trimmed non-empty task lists stay so |
| DecisionMagic.RemoveTask | src/components/DecisionMagic.js:58-61 | filtering out position `index` cuts exactly that position out of the list when it is in range and keeps the list otherwise; the result is cleared and nothing else changes |
| DecisionMagic.RemoveTaskShape | src/components/DecisionMagic.js:59 | an in-range removal makes the list one shorter, removes one copy of that task and keeps the other tasks in order |
| DecisionMagic.AppendTrimmedKeepsClean | src/components/DecisionMagic.js:51-53 | appending the trimmed input, once it is non-empty, to trimmed non-empty tasks keeps every task trimmed and non-empty |
| DecisionMagic.RemoveTaskClean | src/components/DecisionMagic.js:59 | the remaining tasks stay trimmed and non-empty |
| DecisionMagic.RemoveKeepsDuplicates | src/components/DecisionMagic.js:59 | an equal task at another position survives the removal |
| DecisionMagic.RunKeepsTasksClean | src/components/DecisionMagic.js:35-103 | whatever sequence of handler events follows, a trimmed non-empty task list stays trimmed and non-empty |
| DecisionMagic.SessionTasksClean | src/components/DecisionMagic.js:9-103 | from the state the component mounts with, every task ever on the wheel is trimmed and non-empty |
| DecisionMagic.SpinCount | src/components/DecisionMagic.js:73 | the wheel turns between 5 and 9 whole times, never 10 as the inline comment says |
| DecisionMagic.SpinCountReaches | src/components/DecisionMagic.js:73 | every spin count from 5 to 9 occurs |
| DecisionMagic.FloatRemSign | src/components/DecisionMagic.js:81 | for a positive divisor, JavaScript's `%` keeps the dividend's sign and stays below the divisor in size |
| DecisionMagic.FloatRemNegative | src/components/DecisionMagic.js:81 | `-90 % 360` is `-90`, not the `270` a floored remainder gives |
| DecisionMagic.FloatRemTurns | src/components/DecisionMagic.js:81 | whole turns drop out of the `%` remainder |
| DecisionMagic.NormalizedAngle | src/components/DecisionMagic.js:81 | the normalised angle lies in [0, 360) and undoes the final angle up to a whole turn |
| DecisionMagic.WinnerIndex | src/components/DecisionMagic.js:82-83 | the winner is a valid index whose section of width 360/n contains the normalised angle |
| DecisionMagic.WinnerReaches | src/components/DecisionMagic.js:74-83 | every task on the wheel can win |
| DecisionMagic.Spin | src/components/DecisionMagic.js:63-88 | fewer than two tasks change nothing; otherwise the rotation is 1800 to 3600 degrees with the final angle as its remainder, and the result names the winner |
| DecisionMagic.ExportLines | src/components/DecisionMagic.js:106-122 | the export has at least seventeen lines, the first is "DECISION MAGIC RESULTS" and the last is "Generated by Time Management Toolkit" |
| DecisionMagic.SaveDecisionData | src/components/DecisionMagic.js:105-122 | the exported text opens with the banner line and a newline and ends with the toolkit credit, with no final newline |
| DecisionMagic.ParseNumberedOf | src/components/DecisionMagic.js:114 | a numbered line `k. task` reads back as `k` and the task |
| DecisionMagic.ExportLayout | src/components/DecisionMagic.js:106-122 | the task block starts on the ninth line and the result line follows it |
| DecisionMagic.ExportTaskLines | src/components/DecisionMagic.js:113-115 | tasks are listed as `1. …`, `2. …` in list order, or "No tasks added"; the `Result:` line has content only when a result exists |
| DecisionMagic.ExportReadsBack | src/components/DecisionMagic.js:105-122 | splitting the exported text at newlines gives back its lines |
| SayingNo.Step | src/components/sayingno.js:40-133 | a priority click sets only the priority; a capacity click sets only the capacity; reset returns both answers to unset |
| SayingNo.ResetShownIff | src/components/sayingno.js:56 | the reset button is shown exactly when at least one answer is set |
| SayingNo.ScreenContents | src/components/sayingno.js:56-158 | the rendered buttons are exactly the three priority buttons, the two capacity buttons while the priority is 'yes', and reset while an answer is set; the rendered panels are exactly the verdicts |
| SayingNo.Run | src/components/sayingno.js:40-43 | an empty run changes nothing, and a run that gets through a final reset is back at the initial state |
| SayingNo.RunAppend | src/components/sayingno.js:56-143 | clicking through `a` and then `b` is clicking through `a + b`; a run that meets a button not on screen stays failed |
| SayingNo.StepPreservesInv | src/components/sayingno.js:118-144 | a click on a shown button keeps "capacity set implies priority set" |
| SayingNo.RunPreservesInv | src/components/sayingno.js:118-144 | every run of clicks on shown buttons keeps the invariant |
| SayingNo.InvReachable | src/components/sayingno.js:66-144 | every state satisfying the invariant is reached by some clicks from the initial state |
| SayingNo.Verdicts | src/components/sayingno.js:104-158 | "Say No!" for priority no, "Pause and clarify" for maybe, "consider saying yes" for capacity yes, "Say No or Negotiate" for capacity no |
| SayingNo.CapacityVerdictIgnoresPriority | src/components/sayingno.js:146-158 | the capacity verdicts depend only on the capacity answer |
| SayingNo.ConflictingVerdictsReachable | src/components/sayingno.js:104-158 | answering yes, yes and then priority no shows "Say No!" and "consider saying yes" together |
| SayingNo.InitialScreen | src/components/sayingno.js:4-5 | initially both answers are unset: only the three priority buttons and no verdict are shown |
| AppTabs.TabIdsDistinct | src/components/App.js:9-15 | the five tab ids are pairwise different |
| AppTabs.InitialActiveListed | src/components/App.js:18 | the initial active id `capacity` is a tab id |
| AppTabs.Find | src/components/App.js:20 | the lookup finds a tab exactly when the id is listed, and then the first tab with that id |
| AppTabs.Click | src/components/App.js:38 | a click sets the active id to a listed id |
| AppTabs.ActiveAfter | src/components/App.js:18-38 | after a run of clicks the last click decides the active id; with no clicks it stays |
| AppTabs.ActiveStaysListed | src/components/App.js:38 | clicking keeps a listed active id listed |
| AppTabs.ActiveAlwaysListed | src/components/App.js:18-38 | after any clicks the active id is listed, so the component lookup never yields undefined |
| AppTabs.Highlighted | src/components/App.js:40 | a button is highlighted exactly when the active id is listed and the button is at the position the lookup finds |
| AppTabs.ExactlyOneHighlighted | src/components/App.js:20-40 | exactly one button is highlighted, and the lookup returns that button's tab |
| Seqs.WithoutIndex | src/components/DecisionMagic.js:59 | `filter((_, i) => i !== index)` cuts position `index` out when it is in range and keeps the list otherwise |
| Text.Trim | src/components/DecisionMagic.js:51-53 | `trim()` yields a string no longer than its input with no whitespace at either end |
| Text.TrimEmptyIff | src/components/DecisionMagic.js:51 | `trim()` yields `''` exactly for whitespace-only input |
| Text.TrimIdempotent | src/components/DecisionMagic.js:53 | a trimmed task is unchanged by trimming again |
| Text.ParseNatToString | src/components/DecisionMagic.js:97 | the decimal numeral of a roll reads back as the roll |
| Text.JoinOpens | src/components/DecisionMagic.js:106-122 | a join of two or more lines opens with the first line and a separator |
| Text.JoinCloses | EnviromentEditor.js:114 | `join('\n')` puts nothing after the last part |
| Text.SplitJoin | EnviromentEditor.js:114 | splitting a newline-joined list of newline-free lines gives back the list |

## Left out

- DOM and browser effects are not modelled. This covers the download of `.env.local`, the clipboard copies, `alert` and `downloadFile`. Each `alert` guard is modelled as "no state change".
- `setTimeout` delays and the `isShaking`/`isSpinning` flags are not modelled. Each delayed update is one atomic step.
- `new Date().toLocaleString()` and `toLocaleDateString()` are parameters.
- `Math.random()` is a parameter in [0, 1). Numbers are exact reals, not IEEE-754 doubles. In doubles, `normalizedAngle / sectionAngle` could round up to `n`; that case is out of scope.
- JavaScript's ordering of integer-like object keys is left out. The object keeps plain insertion order: an overwritten key keeps its place, and a deleted then re-added key goes last.
- Strings are sequences of Unicode scalar values, not UTF-16 code units. No modelled operation depends on the difference.
- The form `onChange` setters are direct field assignments and need no contract. This covers the key, value, question and task input.
- JSX markup, CSS classes, the per-tab highlight styles and the wheel segment rendering are left out.
- DecisionMagic.WinnerIndex: states which section `[i * 360/n, (i + 1) * 360/n)` holds the normalised angle, not that the drawn segment of that task sits under the pointer. The segments are drawn by CSS rotations (DecisionMagic.js:226-236), which are not modelled. Read as written, segment `i` is the top-left quarter turned by `i * 360/n`, which is not the same arc; nothing was executed to confirm this.
- The phrase cards of the Saying No page and their clipboard copy are left out. The verdict panels are tokens: their headline and advice texts are not modelled.
- heroku_config.js shells out through `execSync`, and its configuration object is static data. tailwind_config.js is styling configuration. Neither is part of this model.
- The page components behind the tabs are opaque tokens (`Panel`).
- EnvEditor.Lookup: models `envVars[key]` for category keys and own keys only. A key named after an inherited `Object.prototype` property (such as `toString`) would read as defined in JavaScript; no category lists such a name.
- EnvFile.FileRoundTrip: requires every key to be free of newlines and `=` and not to start with `#`, and every value to be free of newlines. The editor accepts any non-empty custom key, so these are real restrictions: `KeyWithEqualsMisread` and `KeyWithHashMisread` show how a dotenv reader misreads such keys.
- EnvFile.EnvFileRoundTrip: the same key and value conditions as `FileRoundTrip`, plus a newline-free timestamp.
- EnvFile.EnvFileReadsBack: the same key and value conditions as `FileRoundTrip`.
- DeployCommands.ParseCommandOf: requires a key without `=`; `CommandKeyWithEqualsRejected` shows a key with `=` failing to read back. The reader takes the quoted value literally; it is not a shell, so quotes, `$`, backticks and backslashes in a value are not interpreted as a shell would.
- DeployCommands.HerokuCommandsRoundTrip: states the round trip through a literal reader, not through a shell. It requires every sent entry to have a key without `=` or newline and a value without newline; entries that are not sent may hold anything.
- DecisionMagic.FloatRemSign: states the bounds for a positive divisor only, the only kind the wheel uses (360).
- Text.Trim: states the length and the two ends. That only leading and trailing whitespace is cut is stated on `TrimStart` and `TrimEnd`.
- DecisionMagic.ExportReadsBack: requires every field of the exported state to be newline-free. The text is still generated for other inputs, but it no longer splits back into the same lines.
- DecisionMagic.SaveDecisionData: the template literal is modelled as its lines joined by newlines. The lines include the two trailing spaces after the die text.

=== FILE: app_tabs.dfy ===
/** The tab bar of the toolkit's shell (src/components/App.js): the tab table, the active tab
    id, the lookup of the component to render and the highlighted button. */
module AppTabs {
  import opened Wrappers
  import opened Seqs

  /** The page components the tabs render, as opaque tokens. */
  datatype Panel = CapacityTracker | SayingNoPanel | TimeBlocking | DecisionMagicPanel | Emergency

  /** A row of the tab table; `caption` is the `label` field, a keyword in Dafny. */
  datatype Tab = Tab(id: string, caption: string, icon: string, component: Panel)

  const Tabs: seq<Tab> := [
    Tab("capacity", "Capacity", "📊", CapacityTracker),
    Tab("saying-no", "Saying No", "🛡️", SayingNoPanel),
    Tab("time-blocking", "Time Blocking", "📅", TimeBlocking),
    Tab("decision-magic", "Decision Magic", "✨", DecisionMagicPanel),
    Tab("emergency", "Emergency", "⚠️", Emergency)
  ]

  /** The tab shown first. */
  const InitialActive := "capacity"

  function Ids(tabs: seq<Tab>): (ids: seq<string>)
    ensures |ids| == |tabs|
    ensures forall i :: 0 <= i < |tabs| ==> ids[i] == tabs[i].id
  {
    seq(|tabs|, i requires 0 <= i < |tabs| => tabs[i].id)
  }

  /** `tabs.find(tab => tab.id === id)`: the first tab with that id, if any. */
  function Find(tabs: seq<Tab>, id: string): (r: Option<Tab>)
    ensures r.Some? <==> id in Ids(tabs)
    ensures r.Some? ==> r.value.id == id && r.value == tabs[IndexOf(Ids(tabs), id)]
  {
    if id in Ids(tabs) then Some(tabs[IndexOf(Ids(tabs), id)]) else None
  }

  /** The tab ids, pairwise different. */
  lemma TabIdsDistinct()
    ensures Ids(Tabs) == ["capacity", "saying-no", "time-blocking", "decision-magic", "emergency"]
    ensures Distinct(Ids(Tabs))
  {
    var ids := Ids(Tabs);
    assert ids == ["capacity", "saying-no", "time-blocking", "decision-magic", "emergency"];
    assert |ids[0]| == 8 && |ids[1]| == 9 && |ids[2]| == 13 && |ids[3]| == 14 && |ids[4]| == 9;
    assert ids[1][0] == 's' && ids[4][0] == 'e';
  }

  /** The initial tab is one of the table's tabs. */
  lemma InitialActiveListed()
    ensures InitialActive in Ids(Tabs)
  {
    assert Ids(Tabs)[0] == InitialActive;
  }

  /** Clicking the button of tab `i` makes that tab's own id the active one. */
  function Click(i: nat): (active: string)
    requires i < |Tabs|
    ensures active in Ids(Tabs)
  {
    assert Ids(Tabs)[i] == Tabs[i].id;
    Tabs[i].id
  }

  /** The active id after clicking the buttons `clicks` in turn: each click replaces the
      active id, so the last click decides and an empty run keeps the current id. */
  function ActiveAfter(active: string, clicks: seq<nat>): (r: string)
    requires forall k :: 0 <= k < |clicks| ==> clicks[k] < |Tabs|
    ensures clicks == [] ==> r == active
    ensures clicks != [] ==> r == Tabs[clicks[|clicks| - 1]].id
    decreases |clicks|
  {
    if clicks == [] then active else ActiveAfter(Click(clicks[0]), clicks[1..])
  }

  /** Whatever is clicked, a listed active id stays listed, so the lookup of the component to
      render always finds a tab. */
  lemma {:induction false} ActiveStaysListed(active: string, clicks: seq<nat>)
    requires active in Ids(Tabs)
    requires forall k :: 0 <= k < |clicks| ==> clicks[k] < |Tabs|
    ensures ActiveAfter(active, clicks) in Ids(Tabs)
    decreases |clicks|
  {
    if clicks != [] {
      ActiveStaysListed(Click(clicks[0]), clicks[1..]);
    }
  }

  /** In particular from the initial tab. */
  lemma {:induction false} ActiveAlwaysListed(clicks: seq<nat>)
    requires forall k :: 0 <= k < |clicks| ==> clicks[k] < |Tabs|
    ensures var active := ActiveAfter(InitialActive, clicks);
      active in Ids(Tabs) && Find(Tabs, active).Some?
  {
    InitialActiveListed();
    ActiveStaysListed(InitialActive, clicks);
  }

  /** `activeTab === tab.id`: whether the button of tab `i` is highlighted. Because the ids
      are distinct, that is the button at the position the lookup finds. */
  predicate Highlighted(active: string, i: nat): (b: bool)
    requires i < |Tabs|
    ensures b <==> active in Ids(Tabs) && IndexOf(Ids(Tabs), active) == i
  {
    TabIdsDistinct();
    assert Ids(Tabs)[i] == Tabs[i].id;
    Tabs[i].id == active
  }

  /** For a listed active id exactly one button is highlighted, and the lookup yields that
      button's tab, hence its component. */
  lemma {:induction false} ExactlyOneHighlighted(active: string)
    requires active in Ids(Tabs)
    ensures exists i :: (0 <= i < |Tabs| && Highlighted(active, i)
      && Find(Tabs, active) == Some(Tabs[i])
      && (forall j :: 0 <= j < |Tabs| && Highlighted(active, j) ==> j == i))
  {
    TabIdsDistinct();
    var ids := Ids(Tabs);
    var i := IndexOf(ids, active);
    assert Highlighted(active, i);
    forall j | 0 <= j < |Tabs| && Highlighted(active, j)
      ensures j == i
    {
      assert ids[j] == ids[i];
    }
  }
}

=== FILE: decision_magic.dfy ===
/** The Decision Magic tools (src/components/DecisionMagic.js): the magic 8-ball, the task
    roulette, the coin, the die, the focus mantras and the exported results text. Every
    `Math.random()` draw is a parameter in [0, 1), and each delayed update is one step. */
module DecisionMagic {
  import opened Wrappers
  import opened Text
  import opened Seqs
  import opened Toolkit

  /** A value of `Math.random()`. */
  type Draw = r: real | 0.0 <= r < 1.0

  /** A draw scales into [0, n). */
  lemma {:induction false} ScaleBelow(r: real, n: real)
    requires 0.0 <= r < 1.0 && n > 0.0
    ensures 0.0 <= r * n < n
  {
    assert n - r * n == (1.0 - r) * n;
  }

  /** `Math.floor(r * n)`: the index a draw selects from a list of `n` items. */
  function Pick(r: Draw, n: nat): (i: nat)
    requires n > 0
    ensures i < n
    ensures i as real <= r * n as real < (i + 1) as real
  {
    ScaleBelow(r, n as real);
    (r * n as real).Floor
  }

  /** Every index of the list is chosen by some draw. */
  lemma {:induction false} PickReaches(n: nat, i: nat)
    requires i < n
    ensures exists r: Draw :: Pick(r, n) == i
  {
    var q := i as real / n as real;
    assert q * n as real == i as real;
    assert q < 1.0;
    var r: Draw := q;
    assert Pick(r, n) == i;
  }

  // ---------------------------------------------------------------------------
  // State

  /** The component state, without the `isShaking` and `isSpinning` animation flags. */
  datatype Magic = Magic(
    question: string,
    ballAnswer: string,
    tasks: seq<string>,
    input: string,
    result: string,
    rotation: real,
    coin: string,
    dice: string,
    mantra: string)

  /** The state the component mounts with: no question, so the ball refuses to answer; no
      tasks, so the wheel refuses to spin; and a task list that is trivially clean. */
  function InitialMagic(): (r: Magic)
    ensures AllWhitespace(r.question)
    ensures r.tasks == []
    ensures |r.tasks| < 2 && CleanTasks(r.tasks)
  {
    Magic("", "Ask a question...", [], "", "", 0.0,
          "Click for yes/no decisions!", "Roll 1-6 for options!", "Get motivated!")
  }

  const MagicResponses: seq<string> := [
    "✅ Definitely start with that!", "🎯 Focus on it now", "⏰ Perfect timing for this task",
    "🚀 Go for it immediately", "💪 You've got this - do it!", "❌ Maybe tackle something else first",
    "⏳ Wait for a better moment", "🤔 Consider your energy level first", "📱 Check your priorities again",
    "🔄 Come back to this later", "⚖️ Weigh your options more", "🎲 Try asking again in 5 minutes",
    "🌟 Your instincts are right", "📋 Break it into smaller steps first", "☕ Take a break, then decide"
  ]

  const FocusMantras: seq<string> := [
    "🧘 I am focused and in control of my time", "⚡ I choose progress over perfection",
    "🎯 This task deserves my full attention", "💪 I have the skills to complete this well",
    "🌊 I flow with my work, not against it", "🔥 I am energized and ready to create",
    "🎪 I make work enjoyable and rewarding", "🚀 I am building momentum with every action",
    "💎 I value my time and use it wisely", "🌟 I trust my ability to make good decisions"
  ]

  // ---------------------------------------------------------------------------
  // Magic 8-ball and mantras

  /** `shakeBall`: a blank question changes nothing (the alert); otherwise the answer becomes
      the response the draw selects, and nothing else changes. */
  function ShakeBall(s: Magic, r: Draw): (t: Magic)
    ensures AllWhitespace(s.question) ==> t == s
    ensures !AllWhitespace(s.question) ==>
      t.ballAnswer == MagicResponses[Pick(r, |MagicResponses|)] && t == s.(ballAnswer := t.ballAnswer)
  {
    TrimEmptyIff(s.question);
    if Trim(s.question) == "" then s
    else s.(ballAnswer := MagicResponses[Pick(r, |MagicResponses|)])
  }

  /** Each of the fifteen responses can be the answer to any non-blank question. */
  lemma {:induction false} ShakeBallReaches(s: Magic, i: nat)
    requires !AllWhitespace(s.question) && i < |MagicResponses|
    ensures exists r: Draw :: ShakeBall(s, r).ballAnswer == MagicResponses[i]
  {
    PickReaches(|MagicResponses|, i);
    var r: Draw :| Pick(r, |MagicResponses|) == i;
    assert ShakeBall(s, r).ballAnswer == MagicResponses[i];
  }

  /** `getMantra`: the mantra the draw selects; nothing else changes. */
  function GetMantra(s: Magic, r: Draw): (t: Magic)
    ensures t.mantra == FocusMantras[Pick(r, |FocusMantras|)]
    ensures t == s.(mantra := t.mantra)
  {
    s.(mantra := FocusMantras[Pick(r, |FocusMantras|)])
  }

  /** Each of the ten mantras can be drawn. */
  lemma {:induction false} GetMantraReaches(s: Magic, i: nat)
    requires i < |FocusMantras|
    ensures exists r: Draw :: GetMantra(s, r).mantra == FocusMantras[i]
  {
    PickReaches(|FocusMantras|, i);
    var r: Draw :| Pick(r, |FocusMantras|) == i;
    assert GetMantra(s, r).mantra == FocusMantras[i];
  }

  // ---------------------------------------------------------------------------
  // Coin and die

  const Heads := "🪙 Heads - YES!"
  const Tails := "🪙 Tails - NO!"

  /** `coinFlip`: heads exactly when the draw is below one half. */
  function CoinFlip(s: Magic, r: Draw): (t: Magic)
    ensures t.coin == Heads <==> r < 0.5
    ensures t.coin == Tails <==> r >= 0.5
    ensures t == s.(coin := t.coin)
  {
    assert Heads[2] != Tails[2];
    s.(coin := if r < 0.5 then Heads else Tails)
  }

  /** Both faces come up: a draw of 0 gives heads and a draw of one half gives tails. */
  lemma CoinFlipReaches(s: Magic)
    ensures exists r: Draw :: CoinFlip(s, r).coin == Heads
    ensures exists r: Draw :: CoinFlip(s, r).coin == Tails
  {
    var h: Draw := 0.0;
    var t: Draw := 0.5;
    assert CoinFlip(s, h).coin == Heads;
    assert CoinFlip(s, t).coin == Tails;
  }

  /** `Math.floor(Math.random() * 6) + 1`. */
  function Roll(r: Draw): (n: nat)
    ensures 1 <= n <= 6
  {
    Pick(r, 6) + 1
  }

  /** Every face of the die can come up. */
  lemma {:induction false} RollReaches(n: nat)
    requires 1 <= n <= 6
    ensures exists r: Draw :: Roll(r) == n
  {
    PickReaches(6, n - 1);
    var r: Draw :| Pick(r, 6) == n - 1;
    assert Roll(r) == n;
  }

  const DicePrefix := "🎲 Rolled: "

  function DiceText(n: nat): string
  {
    DicePrefix + NatToString(n)
  }

  /** Reads the rolled number back out of the die text. */
  function DiceValue(text: string): Option<nat>
  {
    if StartsWith(text, DicePrefix) then ParseNat(text[|DicePrefix|..]) else None
  }

  /** `rollDice`: the die text names the roll, which lies in 1..6; nothing else changes. */
  function RollDice(s: Magic, r: Draw): (t: Magic)
    ensures DiceValue(t.dice) == Some(Roll(r))
    ensures t == s.(dice := t.dice)
  {
    var text := DiceText(Roll(r));
    assert text[..|DicePrefix|] == DicePrefix && text[|DicePrefix|..] == NatToString(Roll(r));
    ParseNatToString(Roll(r));
    s.(dice := text)
  }

  // ---------------------------------------------------------------------------
  // Task roulette

  /** A task the roulette can hold: trimmed and non-empty. */
  predicate CleanTask(task: string)
  {
    task != "" && Trim(task) == task
  }

  /** A list of tasks the roulette can hold. */
  predicate CleanTasks(tasks: seq<string>)
  {
    forall i :: 0 <= i < |tasks| ==> CleanTask(tasks[i])
  }

  /** `addRouletteTask`: a blank input changes nothing; otherwise the trimmed input goes at
      the end of the list and the input and the last result are cleared. */
  function AddTask(s: Magic): (t: Magic)
    ensures AllWhitespace(s.input) ==> t == s
    ensures !AllWhitespace(s.input) ==>
      t == s.(tasks := s.tasks + [Trim(s.input)], input := "", result := "")
    ensures CleanTasks(s.tasks) ==> CleanTasks(t.tasks)
  {
    TrimEmptyIff(s.input);
    var task := Trim(s.input);
    if task == "" then s
    else
      AppendTrimmedKeepsClean(s.tasks, s.input);
      s.(tasks := s.tasks + [task], input := "", result := "")
  }

  /** Appending a non-empty trimmed input to a clean task list keeps it clean. */
  lemma {:induction false} AppendTrimmedKeepsClean(tasks: seq<string>, input: string)
    requires Trim(input) != ""
    ensures CleanTasks(tasks) ==> CleanTasks(tasks + [Trim(input)])
  {
    var x := Trim(input);
    TrimIdempotent(input);
    assert CleanTask(x);
    var t := tasks + [x];
    assert t[|tasks|] == x;
    assert forall i :: 0 <= i < |tasks| ==> t[i] == tasks[i];
  }

  /** `removeRouletteTask(index)`: `filter((_, i) => i !== index)` on the tasks, which is the
      list with position `index` cut out when it is in range and the whole list otherwise; the
      last result is cleared. */
  function RemoveTask(s: Magic, index: int): (t: Magic)
    ensures 0 <= index < |s.tasks| ==> t.tasks == s.tasks[..index] + s.tasks[index + 1..]
    ensures !(0 <= index < |s.tasks|) ==> t.tasks == s.tasks
    ensures t == s.(tasks := t.tasks, result := "")
  {
    s.(tasks := WithoutIndex(s.tasks, index), result := "")
  }

  /** Removing an in-range position shortens the list by one, removes one copy of that task
      and keeps every other task in order. */
  lemma {:induction false} RemoveTaskShape(s: Magic, index: int)
    requires 0 <= index < |s.tasks|
    ensures var t := RemoveTask(s, index).tasks;
      && |t| == |s.tasks| - 1
      && multiset(t) + multiset{s.tasks[index]} == multiset(s.tasks)
      && (forall j :: 0 <= j < index ==> t[j] == s.tasks[j])
      && (forall j :: index <= j < |t| ==> t[j] == s.tasks[j + 1])
  {
    WithoutIndexShape(s.tasks, index);
    WithoutIndexMultiset(s.tasks, index);
  }

  /** Removing a task keeps the remaining ones trimmed and non-empty. */
  lemma {:induction false} RemoveTaskClean(s: Magic, index: int)
    requires CleanTasks(s.tasks)
    ensures CleanTasks(RemoveTask(s, index).tasks)
  {
    if 0 <= index < |s.tasks| {
      WithoutIndexShape(s.tasks, index);
    }
  }

  /** A task equal to the removed one at another position stays in the list. */
  lemma {:induction false} RemoveKeepsDuplicates(s: Magic, index: int, j: int)
    requires 0 <= index < |s.tasks| && 0 <= j < |s.tasks| && j != index
    requires s.tasks[j] == s.tasks[index]
    ensures s.tasks[index] in RemoveTask(s, index).tasks
  {
    var t := RemoveTask(s, index).tasks;
    RemoveTaskShape(s, index);
    if j < index {
      assert t[j] == s.tasks[j];
    } else {
      assert t[j - 1] == s.tasks[j];
    }
  }

  /** The spin count `Math.floor(Math.random() * 5) + 5`: from 5 to 9 full turns. */
  function SpinCount(r: Draw): (n: nat)
    ensures 5 <= n <= 9
  {
    Pick(r, 5) + 5
  }

  /** Every spin count from 5 to 9 occurs; ten full turns never do. */
  lemma {:induction false} SpinCountReaches(n: nat)
    requires 5 <= n <= 9
    ensures exists r: Draw :: SpinCount(r) == n
  {
    PickReaches(5, n - 5);
    var r: Draw :| Pick(r, 5) == n - 5;
    assert SpinCount(r) == n;
  }

  /** JavaScript's `Math.trunc`. */
  function Trunc(x: real): int
  {
    if x >= 0.0 then x.Floor else -((-x).Floor)
  }

  /** JavaScript's `%` on numbers: the remainder of a quotient truncated toward zero. */
  function FloatRem(x: real, y: real): real
    requires y != 0.0
  {
    x - y * Trunc(x / y) as real
  }

  /** For a positive divisor the remainder takes the sign of the dividend and is smaller than
      the divisor in size: in [0, y) for x >= 0 and in (-y, 0] for x < 0. */
  lemma {:induction false} FloatRemSign(x: real, y: real)
    requires y > 0.0
    ensures x >= 0.0 ==> 0.0 <= FloatRem(x, y) < y
    ensures x < 0.0 ==> -y < FloatRem(x, y) <= 0.0
  {
    var q := x / y;
    QuotientSign(x, y);
    FloatRemScaled(x, y);
    var frac := q - Trunc(q) as real;
    if x >= 0.0 {
      ScaledBelow(FloatRem(x, y), frac, y);
    } else {
      ScaledBelow(-FloatRem(x, y), -frac, y);
    }
  }

  lemma {:induction false} ScaledBelow(p: real, frac: real, y: real)
    requires y > 0.0 && 0.0 <= frac < 1.0 && p == frac * y
    ensures 0.0 <= p < y
  {
    ScaleBelow(frac, y);
  }

  lemma {:induction false} QuotientSign(x: real, y: real)
    requires y > 0.0
    ensures x >= 0.0 <==> x / y >= 0.0
  {
    var q := x / y;
    assert q * y == x;
    if q < 0.0 {
      assert (-q) * y == -x;
      PositiveFactor(-q, y);
    }
    if x < 0.0 && q >= 0.0 {
      assert (-q) * y == -x;
      PositiveFactor(-q, y);
    }
  }

  /** The remainder is the fractional part the truncation drops, scaled back by the divisor,
      and that fractional part is under one in size with the sign of the quotient. */
  lemma {:induction false} FloatRemScaled(x: real, y: real)
    requires y > 0.0
    ensures FloatRem(x, y) == (x / y - Trunc(x / y) as real) * y
    ensures -FloatRem(x, y) == -(x / y - Trunc(x / y) as real) * y
    ensures x / y >= 0.0 ==> 0.0 <= x / y - Trunc(x / y) as real < 1.0
    ensures x / y < 0.0 ==> 0.0 <= Trunc(x / y) as real - x / y < 1.0
  {
    var q := x / y;
    assert q * y == x;
  }

  /** Unlike a floored or Euclidean remainder, a negative dividend keeps its sign:
      `-90 % 360` is `-90`, not `270`. */
  lemma FloatRemNegative()
    ensures FloatRem(-90.0, 360.0) == -90.0
  {
    assert -90.0 / 360.0 == -0.25;
    assert Trunc(-0.25) == 0;
  }

  lemma {:induction false} PositiveFactor(p: real, y: real)
    requires y > 0.0 && p * y > 0.0
    ensures p > 0.0
  {
  }

  /** A value in [0, y) divided by `y` lies in [0, 1). */
  lemma {:induction false} DivBelow(a: real, y: real)
    requires y > 0.0 && 0.0 <= a < y
    ensures 0.0 <= a / y < 1.0
  {
    var q := a / y;
    assert q * y == a;
    assert y - a == (1.0 - q) * y;
    PositiveFactor(1.0 - q, y);
  }

  /** Whole turns drop out of the remainder: `(k * y + a) % y` is `a` for `a` in [0, y). */
  lemma {:induction false} FloatRemTurns(k: nat, a: real, y: real)
    requires y > 0.0 && 0.0 <= a < y
    ensures FloatRem(k as real * y + a, y) == a
  {
    var x := k as real * y + a;
    DivBelow(a, y);
    assert x / y == k as real + a / y;
    assert Trunc(x / y) == k;
  }

  /** A full turn leaves no remainder. */
  lemma {:induction false} FloatRemSelf(y: real)
    requires y > 0.0
    ensures FloatRem(y, y) == 0.0
  {
    assert y / y == 1.0;
  }

  /** `(360 - (finalAngle % 360)) % 360`: the turn that brings the wheel back to its start,
      so the normalised and the final angle add up to a whole number of turns. */
  function NormalizedAngle(a: real): (n: real)
    requires 0.0 <= a < 360.0
    ensures 0.0 <= n < 360.0
    ensures n + a == 0.0 || n + a == 360.0
  {
    FloatRemTurns(0, a, 360.0);
    var turned := 360.0 - FloatRem(a, 360.0);
    if a == 0.0 then
      FloatRemSelf(360.0);
      FloatRem(turned, 360.0)
    else
      FloatRemTurns(0, turned, 360.0);
      FloatRem(turned, 360.0)
  }

  /** An angle in [0, 360) measured in sections of 360/n lies below `n` sections. */
  lemma {:induction false} SectionOf(norm: real, n: nat)
    requires 0.0 <= norm < 360.0 && n > 0
    ensures var q := norm / (360.0 / n as real);
      0.0 <= q < n as real && q * (360.0 / n as real) == norm
  {
    var section := 360.0 / n as real;
    var q := norm / section;
    assert q == (norm / 360.0) * n as real;
    ScaleBelow(norm / 360.0, n as real) by { DivBelow(norm, 360.0); }
  }

  lemma {:induction false} FloorScaled(q: real, section: real)
    requires section > 0.0 && q >= 0.0
    ensures q.Floor as real * section <= q * section < (q.Floor + 1) as real * section
  {
    var f := q.Floor as real;
    assert (q - f) * section >= 0.0;
    assert (f + 1.0 - q) * section > 0.0;
  }

  /** `Math.floor(normalizedAngle / (360 / n))`: the index of the section
      `[i * 360/n, (i + 1) * 360/n)` that holds the normalised angle. The winner is a valid
      index. */
  function WinnerIndex(a: real, n: nat): (i: nat)
    requires 0.0 <= a < 360.0 && n > 0
    ensures i < n
    ensures i as real * (360.0 / n as real) <= NormalizedAngle(a) < (i + 1) as real * (360.0 / n as real)
  {
    var norm := NormalizedAngle(a);
    FloorSection(norm, n);
    (norm / (360.0 / n as real)).Floor
  }

  /** The section index of an angle in [0, 360) is below `n`, and its section holds the
      angle. */
  lemma {:induction false} FloorSection(norm: real, n: nat)
    requires 0.0 <= norm < 360.0 && n > 0
    ensures var section := 360.0 / n as real;
      var i := (norm / section).Floor;
      && 0 <= i < n
      && i as real * section <= norm < (i + 1) as real * section
  {
    var section := 360.0 / n as real;
    var q := norm / section;
    SectionOf(norm, n);
    FloorScaled(q, section);
    assert q * section == norm;
  }

  /** Every task on the wheel can win. */
  lemma {:induction false} WinnerReaches(n: nat, i: nat)
    requires i < n
    ensures exists a: real :: 0.0 <= a < 360.0 && WinnerIndex(a, n) == i
  {
    var section := 360.0 / n as real;
    var target := i as real * section;
    DivBelow(i as real, n as real);
    assert target == (i as real / n as real) * 360.0;
    ScaleBelow(i as real / n as real, 360.0);
    var a := if i == 0 then 0.0 else 360.0 - target;
    assert NormalizedAngle(a) == target;
    assert target / section == i as real;
    assert WinnerIndex(a, n) == i;
  }

  const WinnerPrefix := "🎯 Winner: "

  /** `spinWheel`: with fewer than two tasks nothing changes (the alert). Otherwise the wheel
      turns 5 to 9 full turns plus the final angle, and the result names the task at the
      index `WinnerIndex` computes from that angle. */
  function Spin(s: Magic, turns: Draw, angle: Draw): (t: Magic)
    ensures |s.tasks| < 2 ==> t == s
    ensures |s.tasks| >= 2 ==>
      var finalAngle := angle * 360.0;
      && t == s.(rotation := t.rotation, result := t.result)
      && 1800.0 <= t.rotation < 3600.0
      && FloatRem(t.rotation, 360.0) == finalAngle
      && t.result == WinnerPrefix + s.tasks[WinnerIndex(finalAngle, |s.tasks|)]
  {
    if |s.tasks| < 2 then s
    else
      var finalAngle := angle * 360.0;
      var spins := SpinCount(turns);
      FloatRemTurns(spins, finalAngle, 360.0);
      s.(rotation := spins as real * 360.0 + finalAngle,
         result := WinnerPrefix + s.tasks[WinnerIndex(finalAngle, |s.tasks|)])
  }

  // ---------------------------------------------------------------------------
  // Sessions

  /** One user event on the page, with the `Math.random()` draws it consumes. */
  datatype Action =
    | TypeQuestion(question: string)
    | Shake(draw: Draw)
    | Mantra(draw: Draw)
    | Flip(draw: Draw)
    | RollDie(draw: Draw)
    | TypeTask(input: string)
    | Add
    | Remove(index: int)
    | SpinWheel(turns: Draw, angle: Draw)

  /** The handler each event reaches; typing only updates the bound field. */
  function Step(s: Magic, a: Action): Magic
  {
    match a
    case TypeQuestion(q) => s.(question := q)
    case Shake(r) => ShakeBall(s, r)
    case Mantra(r) => GetMantra(s, r)
    case Flip(r) => CoinFlip(s, r)
    case RollDie(r) => RollDice(s, r)
    case TypeTask(i) => s.(input := i)
    case Add => AddTask(s)
    case Remove(i) => RemoveTask(s, i)
    case SpinWheel(turns, angle) => Spin(s, turns, angle)
  }

  /** The state after a sequence of events, in order. */
  function Run(s: Magic, actions: seq<Action>): Magic
    decreases |actions|
  {
    if actions == [] then s else Run(Step(s, actions[0]), actions[1..])
  }

  /** Whatever the user does, every task on the wheel stays trimmed and non-empty, so the
      roulette never shows a blank or padded section. */
  lemma {:induction false} RunKeepsTasksClean(s: Magic, actions: seq<Action>)
    requires CleanTasks(s.tasks)
    ensures CleanTasks(Run(s, actions).tasks)
    decreases |actions|
  {
    if actions != [] {
      var t := Step(s, actions[0]);
      if actions[0].Remove? {
        RemoveTaskClean(s, actions[0].index);
      }
      RunKeepsTasksClean(t, actions[1..]);
    }
  }

  /** In particular, from the state the component mounts with. */
  lemma SessionTasksClean(actions: seq<Action>)
    ensures CleanTasks(Run(InitialMagic(), actions).tasks)
  {
    RunKeepsTasksClean(InitialMagic(), actions);
  }

  // ---------------------------------------------------------------------------
  // Exported results

  /** `${index + 1}. ${task}`. */
  function Numbered(k: nat, task: string): string
  {
    NatToString(k) + ". " + task
  }

  function NumberedTasks(tasks: seq<string>): (ls: seq<string>)
    ensures |ls| == |tasks|
    ensures forall i :: 0 <= i < |tasks| ==> ls[i] == Numbered(i + 1, tasks[i])
  {
    seq(|tasks|, i requires 0 <= i < |tasks| => Numbered(i + 1, tasks[i]))
  }

  /** The lines between "ROULETTE TASKS:" and the result line. */
  function TaskBlock(tasks: seq<string>): (ls: seq<string>)
    ensures |ls| >= 1
  {
    if |tasks| > 0 then NumberedTasks(tasks) else ["No tasks added"]
  }

  lemma TaskBlockLines(tasks: seq<string>)
    ensures |TaskBlock(tasks)| == if |tasks| > 0 then |tasks| else 1
    ensures |tasks| == 0 ==> TaskBlock(tasks)[0] == "No tasks added"
    ensures forall i :: 0 <= i < |tasks| ==> TaskBlock(tasks)[i] == Numbered(i + 1, tasks[i])
  {
  }

  function ResultLine(result: string): string
  {
    if result != "" then "Result: " + result else ""
  }

  function HeadLines(s: Magic, date: string): (ls: seq<string>)
    ensures |ls| == 8
  {
    ["DECISION MAGIC RESULTS", "Generated: " + date, "",
     "MAGIC 8-BALL:", "Question: \"" + s.question + "\"", "Answer: \"" + s.ballAnswer + "\"", "",
     "ROULETTE TASKS:"]
  }

  function TailLines(s: Magic): (ls: seq<string>)
    ensures |ls| == 7
  {
    ["", "QUICK DECISION RESULTS:",
     "- Coin Flip: " + s.coin, "- Dice Roll: " + s.dice + "  ", "- Focus Mantra: " + s.mantra,
     "", "Generated by " + ToolkitName]
  }

  /** The lines of the exported text; `date` stands for `toLocaleDateString()`. The text
      opens with the "DECISION MAGIC RESULTS" banner and closes with the toolkit credit. */
  function ExportLines(s: Magic, date: string): (ls: seq<string>)
    ensures |ls| >= 17
    ensures ls[0] == "DECISION MAGIC RESULTS"
    ensures ls[|ls| - 1] == "Generated by " + ToolkitName
  {
    var head, tail := HeadLines(s, date), TailLines(s);
    var ls := head + TaskBlock(s.tasks) + [ResultLine(s.result)] + tail;
    assert ls[0] == head[0];
    assert ls[|ls| - 1] == tail[6];
    ls
  }

  /** `saveDecisionData`'s text: the export lines separated by newlines, no final newline, so
      the text opens with the banner line and ends with the credit itself. */
  function SaveDecisionData(s: Magic, date: string): (r: string)
    ensures StartsWith(r, "DECISION MAGIC RESULTS\n")
    ensures EndsWith(r, "Generated by " + ToolkitName)
  {
    var ls := ExportLines(s, date);
    JoinOpens(ls, "\n");
    JoinCloses(ls, "\n");
    Join(ls, "\n")
  }

  /** Reads a numbered line `k. task` back into `k` and the task. */
  function ParseNumbered(line: string): Option<(nat, string)>
  {
    if '.' !in line then None
    else
      var i := IndexOf(line, '.');
      var rest := line[i + 1..];
      match ParseNat(line[..i])
      case Some(k) => if StartsWith(rest, " ") then Some((k, rest[1..])) else None
      case None => None
  }

  lemma {:induction false} ParseNumberedOf(k: nat, task: string)
    ensures ParseNumbered(Numbered(k, task)) == Some((k, task))
  {
    var digits := NatToString(k);
    var line := Numbered(k, task);
    assert '.' !in digits by {
      assert forall j :: 0 <= j < |digits| ==> IsDigit(digits[j]);
    }
    assert line == digits + ['.'] + (" " + task);
    IndexOfAfter(digits, '.', " " + task);
    assert line[..|digits|] == digits;
    assert line[|digits| + 1..] == " " + task;
    ParseNatToString(k);
  }

  /** Where the task block and the result line sit among the export lines. */
  lemma {:induction false} ExportLayout(s: Magic, date: string)
    ensures var ls := ExportLines(s, date);
      var block := TaskBlock(s.tasks);
      && |ls| == 16 + |block|
      && (forall i :: 0 <= i < |block| ==> ls[8 + i] == block[i])
      && ls[8 + |block|] == ResultLine(s.result)
  {
    var ls := ExportLines(s, date);
    var block := TaskBlock(s.tasks);
    var front := HeadLines(s, date) + block + [ResultLine(s.result)];
    assert ls == front + TailLines(s);
    forall i | 0 <= i < |block| ensures ls[8 + i] == block[i] {
      assert ls[8 + i] == front[8 + i];
    }
    assert ls[8 + |block|] == front[8 + |block|];
  }

  /** The task block lists the tasks as `1. first`, `2. second`, ... in list order, or says
      "No tasks added"; the result line follows it and carries the result only when there is
      one. */
  lemma {:induction false} ExportTaskLines(s: Magic, date: string)
    ensures var ls := ExportLines(s, date);
      && |ls| == 16 + (if |s.tasks| > 0 then |s.tasks| else 1)
      && (|s.tasks| == 0 ==> ls[8] == "No tasks added")
      && (forall i :: 0 <= i < |s.tasks| ==> ParseNumbered(ls[8 + i]) == Some((i + 1, s.tasks[i])))
      && var rl := ls[8 + |TaskBlock(s.tasks)|];
        (s.result != "" ==> rl == "Result: " + s.result) && (s.result == "" ==> rl == "")
  {
    ExportLayout(s, date);
    TaskBlockLines(s.tasks);
    ExportTasksParse(s, date);
  }

  /** Each numbered line of the export reads back as its position and task. */
  lemma {:induction false} ExportTasksParse(s: Magic, date: string)
    ensures var ls := ExportLines(s, date);
      forall i :: 0 <= i < |s.tasks| ==> ParseNumbered(ls[8 + i]) == Some((i + 1, s.tasks[i]))
  {
    var ls := ExportLines(s, date);
    forall i | 0 <= i < |s.tasks|
      ensures ParseNumbered(ls[8 + i]) == Some((i + 1, s.tasks[i]))
    {
      ExportTaskLineAt(s, date, i);
      ParseNumberedOf(i + 1, s.tasks[i]);
    }
  }

  /** The export line of task `i` is its numbered line. */
  lemma {:induction false} ExportTaskLineAt(s: Magic, date: string, i: nat)
    requires i < |s.tasks|
    ensures 8 + i < |ExportLines(s, date)| && ExportLines(s, date)[8 + i] == Numbered(i + 1, s.tasks[i])
  {
    ExportLayout(s, date);
    TaskBlockLines(s.tasks);
  }

  /** No field of the state or the date holds a newline. */
  predicate PlainExport(s: Magic, date: string)
  {
    && '\n' !in date && '\n' !in s.question && '\n' !in s.ballAnswer && '\n' !in s.result
    && '\n' !in s.coin && '\n' !in s.dice && '\n' !in s.mantra
    && NoneContains(s.tasks, '\n')
  }

  // Solver scaffolding: the `*Plain` lemmas state facts about literals once, so that the
  // read-back proofs do not unfold the literals themselves.
  lemma HeadLabelsPlain()
    ensures '\n' !in "DECISION MAGIC RESULTS" && '\n' !in "Generated: " && '\n' !in "MAGIC 8-BALL:"
    ensures '\n' !in "Question: \"" && '\n' !in "Answer: \"" && '\n' !in "\"" && '\n' !in "ROULETTE TASKS:"
  {
  }

  lemma TailLabelsPlain()
    ensures '\n' !in "QUICK DECISION RESULTS:" && '\n' !in "- Coin Flip: " && '\n' !in "- Dice Roll: "
    ensures '\n' !in "  " && '\n' !in "- Focus Mantra: "
  {
  }

  lemma FooterPlain()
    ensures '\n' !in "Generated by " && '\n' !in ToolkitName
  {
    assert ToolkitName == "Time Management Toolkit";
  }

  lemma {:induction false} HeadLinesPlain(s: Magic, date: string)
    requires PlainExport(s, date)
    ensures NoneContains(HeadLines(s, date), '\n')
  {
    HeadLabelsPlain();
  }

  lemma {:induction false} TailLinesPlain(s: Magic)
    requires '\n' !in s.coin && '\n' !in s.dice && '\n' !in s.mantra
    ensures NoneContains(TailLines(s), '\n')
  {
    TailLabelsPlain();
    FooterPlain();
  }

  lemma {:induction false} MiddleLinesPlain(s: Magic)
    requires '\n' !in s.result && NoneContains(s.tasks, '\n')
    ensures NoneContains(TaskBlock(s.tasks) + [ResultLine(s.result)], '\n')
  {
    var block := TaskBlock(s.tasks);
    if |s.tasks| > 0 {
      forall i | 0 <= i < |block| ensures '\n' !in block[i] {
        var digits := NatToString(i + 1);
        assert forall j :: 0 <= j < |digits| ==> IsDigit(digits[j]);
        assert block[i] == digits + ". " + s.tasks[i];
      }
    } else {
      assert '\n' !in "No tasks added";
    }
    assert '\n' !in "Result: ";
  }

  /** Splitting the exported text at newlines gives back its lines, so the numbered tasks and
      the result line can be read back from the text itself. */
  lemma {:induction false} ExportReadsBack(s: Magic, date: string)
    requires PlainExport(s, date)
    ensures Split(SaveDecisionData(s, date), '\n') == ExportLines(s, date)
  {
    var head := HeadLines(s, date);
    var middle := TaskBlock(s.tasks) + [ResultLine(s.result)];
    var tail := TailLines(s);
    HeadLinesPlain(s, date);
    MiddleLinesPlain(s);
    TailLinesPlain(s);
    var ls := ExportLines(s, date);
    assert ls == head + middle + tail;
    assert NoneContains(ls, '\n') by {
      forall i | 0 <= i < |ls| ensures '\n' !in ls[i] {
        if i < |head| {
          assert ls[i] == head[i];
        } else if i < |head| + |middle| {
          assert ls[i] == middle[i - |head|];
        } else {
          assert ls[i] == tail[i - |head| - |middle|];
        }
      }
    }
    SplitJoin(ls, '\n');
  }
}

=== FILE: deploy_commands.dfy ===
/** The Heroku deployment commands the environment editor offers to copy
    (`generateHerokuCommands` in EnviromentEditor.js), and a reader of the pasted text. */
module DeployCommands {
  import opened Wrappers
  import opened Text
  import opened Seqs
  import opened EnvEditor

  const ReactPrefix := "REACT_APP_"

  /** A key sent to Heroku: a `REACT_APP_` key, `NODE_ENV` or `NPM_CONFIG_PRODUCTION`. */
  predicate Deployable(k: string)
  {
    StartsWith(k, ReactPrefix) || k == "NODE_ENV" || k == "NPM_CONFIG_PRODUCTION"
  }

  /** The entries with a deployable key, in enumeration order. */
  function DeployableEntries(m: seq<Entry>): (r: seq<Entry>)
    ensures forall e :: e in r <==> e in m && Deployable(e.key)
  {
    if m == [] then []
    else (if Deployable(m[0].key) then [m[0]] else []) + DeployableEntries(m[1..])
  }

  /** The filter follows enumeration order: the deployable entries of `a + b` are those of
      `a` followed by those of `b`. */
  lemma {:induction false} DeployableAppend(a: seq<Entry>, b: seq<Entry>)
    ensures DeployableEntries(a + b) == DeployableEntries(a) + DeployableEntries(b)
  {
    if a == [] {
      assert a + b == b;
    } else {
      assert (a + b)[0] == a[0];
      assert (a + b)[1..] == a[1..] + b;
      DeployableAppend(a[1..], b);
    }
  }

  /** One entry is sent exactly when its key is deployable. */
  lemma DeployableSingle(e: Entry)
    ensures DeployableEntries([e]) == if Deployable(e.key) then [e] else []
  {
    assert [e][1..] == [];
  }

  const CommandPrefix := "heroku config:set "

  /** `heroku config:set KEY="VALUE"`: the command opens with `heroku config:set `, closes
      with a double quote, and adds three characters (`=` and two quotes) to the key and value. */
  function Command(e: Entry): (r: string)
    ensures StartsWith(r, CommandPrefix)
    ensures EndsWith(r, "\"")
    ensures |r| == |CommandPrefix| + |e.key| + |e.value| + 3
  {
    CommandPrefix + e.key + "=\"" + e.value + "\""
  }

  function Commands(es: seq<Entry>): (r: seq<string>)
    ensures |r| == |es|
    ensures forall i :: 0 <= i < |es| ==> r[i] == Command(es[i])
  {
    if es == [] then [] else [Command(es[0])] + Commands(es[1..])
  }

  /** `generateHerokuCommands()`: one command per deployable entry, joined by newlines. The
      text is empty exactly when no key is deployable, and otherwise ends with the closing
      quote of the last command, not with a newline. */
  function GenerateHerokuCommands(m: EnvVars): (r: string)
    ensures r == "" <==> forall e :: e in m ==> !Deployable(e.key)
    ensures r != "" ==> r[|r| - 1] == '"'
  {
    var es := DeployableEntries(m);
    var cs := Commands(es);
    if cs != [] then
      JoinCloses(cs, "\n");
      assert es[0] in m;
      Join(cs, "\n")
    else
      Join(cs, "\n")
  }

  // ---------------------------------------------------------------------------
  // Reading the commands back

  /** Reads one command back into the entry it sets: the prefix, a key up to the first `=`,
      and a double-quoted value. */
  function ParseCommand(line: string): Option<Entry>
  {
    if !StartsWith(line, CommandPrefix) then None
    else
      var rest := line[|CommandPrefix|..];
      if '=' !in rest then None
      else
        var i := IndexOf(rest, '=');
        var quoted := rest[i + 1..];
        if |quoted| >= 2 && quoted[0] == '"' && quoted[|quoted| - 1] == '"' then
          Some(Entry(rest[..i], quoted[1..|quoted| - 1]))
        else None
  }

  function ParseCommandLines(ss: seq<string>): (r: Option<seq<Entry>>)
    ensures r.Some? ==> |r.value| == |ss|
  {
    if ss == [] then Some([])
    else match (ParseCommand(ss[0]), ParseCommandLines(ss[1..]))
      case (Some(e), Some(es)) => Some([e] + es)
      case _ => None
  }

  /** Reads a pasted command list back into the entries it sets. */
  function ParseHerokuCommands(text: string): Option<seq<Entry>>
  {
    if text == "" then Some([]) else ParseCommandLines(Split(text, '\n'))
  }

  /** A command reads back as the entry it was made from when the key holds no `=`. */
  lemma {:induction false} ParseCommandOf(e: Entry)
    requires '=' !in e.key
    ensures ParseCommand(Command(e)) == Some(e)
  {
    var line := Command(e);
    var rest := e.key + "=\"" + e.value + "\"";
    assert line == CommandPrefix + rest;
    assert line[..|CommandPrefix|] == CommandPrefix;
    assert line[|CommandPrefix|..] == rest;
    assert rest == e.key + ['='] + ("\"" + e.value + "\"");
    IndexOfAfter(e.key, '=', "\"" + e.value + "\"");
    assert rest[..|e.key|] == e.key;
    var quoted := rest[|e.key| + 1..];
    assert quoted == "\"" + e.value + "\"";
    assert quoted[1..|quoted| - 1] == e.value;
  }

  lemma {:induction false} ParseCommandLinesOf(es: seq<Entry>)
    requires forall e :: e in es ==> '=' !in e.key
    ensures ParseCommandLines(Commands(es)) == Some(es)
  {
    if es != [] {
      ParseCommandOf(es[0]);
      ParseCommandLinesOf(es[1..]);
      assert Commands(es)[1..] == Commands(es[1..]);
      assert es == [es[0]] + es[1..];
    }
  }

  // Solver scaffolding: the `*Plain` lemmas state facts about literals once, so that the
  // read-back proofs do not unfold the literals themselves.
  lemma PrefixPlain()
    ensures '\n' !in CommandPrefix
  {
    assert '\n' !in CommandPrefix;
  }

  /** The command of a command-safe entry is one line. */
  lemma {:induction false} CommandPlain(e: Entry)
    requires CommandSafe(e)
    ensures '\n' !in Command(e)
  {
    PrefixPlain();
    assert Command(e) == CommandPrefix + e.key + ['=', '"'] + e.value + ['"'];
  }

  /** An entry whose command reads back unambiguously: key and value on one line and no `=`
      in the key. Quotes, `$`, backticks and backslashes in the value are written as they
      are; the reader takes the quoted text literally, as the editor wrote it, and no shell
      unquoting is modelled. */
  predicate CommandSafe(e: Entry)
  {
    '\n' !in e.key && '\n' !in e.value && '=' !in e.key
  }

  /** Pasting the command list back in sets exactly the deployable entries, in enumeration
      order, provided every deployable entry is command-safe; other entries are not sent and
      may hold anything. */
  lemma {:induction false} HerokuCommandsRoundTrip(m: EnvVars)
    requires forall e :: e in m && Deployable(e.key) ==> CommandSafe(e)
    ensures ParseHerokuCommands(GenerateHerokuCommands(m)) == Some(DeployableEntries(m))
  {
    var es := DeployableEntries(m);
    var cs := Commands(es);
    if cs != [] {
      forall i | 0 <= i < |cs| ensures '\n' !in cs[i] {
        assert es[i] in m;
        CommandPlain(es[i]);
      }
      SplitJoin(cs, '\n');
      ParseCommandLinesOf(es);
    }
  }

  /** The command for a key holding `=` does not read back: `heroku config:set A=B="v"` splits
      at the first `=`, and what follows is not a quoted value. */
  lemma CommandKeyWithEqualsRejected()
    ensures ParseCommand(Command(Entry("A=B", "v"))) == None
  {
    var line := Command(Entry("A=B", "v"));
    assert line[..|CommandPrefix|] == CommandPrefix;
    var rest := line[|CommandPrefix|..];
    assert rest == "A=B=\"v\"";
    assert rest[1] == '=' && rest[0] != '=';
    assert IndexOf(rest, '=') == 1;
    assert rest[2..][0] == 'B';
  }

  /** Build-only keys such as `CI` and `GENERATE_SOURCEMAP` are never sent to Heroku, while
      `NODE_ENV`, `NPM_CONFIG_PRODUCTION` and every `REACT_APP_` key are. */
  lemma {:induction false} DeployableKeys(k: string)
    ensures !Deployable("CI") && !Deployable("GENERATE_SOURCEMAP")
    ensures Deployable("NODE_ENV") && Deployable("NPM_CONFIG_PRODUCTION")
    ensures Deployable(ReactPrefix + k)
  {
    assert (ReactPrefix + k)[..|ReactPrefix|] == ReactPrefix;
    assert "GENERATE_SOURCEMAP"[..|ReactPrefix|] != ReactPrefix by {
      assert "GENERATE_SOURCEMAP"[0] != ReactPrefix[0];
    }
  }
}

=== FILE: env_editor.dfy ===
/** The environment-variable editor (EnviromentEditor.js): the variable object with its three
    updates, the categorised `.env.local` text, and the deployment commands built from it. */
module EnvEditor {
  import opened Wrappers
  import opened Text
  import opened Seqs

  // ---------------------------------------------------------------------------
  // The variable object

  /** One own property of the variable object: a key and its string value. */
  datatype Entry = Entry(key: string, value: string)

  /** The keys of `m`, in enumeration order. */
  function KeysOf(m: seq<Entry>): (ks: seq<string>)
    ensures |ks| == |m|
    ensures forall i :: 0 <= i < |m| ==> ks[i] == m[i].key
  {
    seq(|m|, i requires 0 <= i < |m| => m[i].key)
  }

  /** The variable object as `Object.entries` enumerates it: one entry per key, in insertion
      order (an overwritten key keeps its place). */
  type EnvVars = m: seq<Entry> | Distinct(KeysOf(m)) witness []

  /** Dropping the first entry leaves a valid object whose keys are the remaining keys. */
  lemma {:induction false} TailKeys(m: EnvVars)
    requires m != []
    ensures KeysOf(m) == [m[0].key] + KeysOf(m[1..])
    ensures Distinct(KeysOf(m[1..]))
    ensures m[0].key !in KeysOf(m[1..])
  {
    var ks := KeysOf(m);
    assert ks == [m[0].key] + KeysOf(m[1..]);
    DistinctAppend([m[0].key], KeysOf(m[1..]));
  }

  /** `envVars[k]` for the keys the editor reads: a category key when the file is generated,
      or one of the object's own keys. The value stored under `k`, or `None` for `undefined`.
      Names inherited from `Object.prototype` are not modelled. */
  function Lookup(m: EnvVars, k: string): (r: Option<string>)
    ensures r.None? <==> k !in KeysOf(m)
    ensures r.Some? ==> Entry(k, r.value) in m
  {
    if m == [] then None
    else if m[0].key == k then Some(m[0].value)
    else
      TailKeys(m);
      Lookup(m[1..], k)
  }

  /** In an object each key carries one value, so `Lookup` is exactly membership. */
  lemma {:induction false} LookupIff(m: EnvVars, k: string, v: string)
    ensures Lookup(m, k) == Some(v) <==> Entry(k, v) in m
  {
    if Entry(k, v) in m {
      var i :| 0 <= i < |m| && m[i] == Entry(k, v);
      var j :| 0 <= j < |m| && m[j] == Entry(k, Lookup(m, k).value);
      assert KeysOf(m)[i] == KeysOf(m)[j];
    }
  }

  /** Position of key `k` in the enumeration order. */
  function KeyIndex(m: EnvVars, k: string): (i: nat)
    requires k in KeysOf(m)
    ensures i < |m| && m[i].key == k
  {
    IndexOf(KeysOf(m), k)
  }

  /** `updateEnvVar(key, value)`: `{ ...prev, [key]: value }`. An existing key is overwritten
      in place; a new key is added at the end. */
  function UpdateVar(m: EnvVars, k: string, v: string): (r: EnvVars)
    ensures Lookup(r, k) == Some(v)
    ensures forall e :: e in r <==> (e in m && e.key != k) || e == Entry(k, v)
    ensures KeysOf(r) == if k in KeysOf(m) then KeysOf(m) else KeysOf(m) + [k]
  {
    var r: seq<Entry> :=
      if k in KeysOf(m) then seq(|m|, i requires 0 <= i < |m| => if m[i].key == k then Entry(k, v) else m[i])
      else m + [Entry(k, v)];
    assert KeysOf(r) == if k in KeysOf(m) then KeysOf(m) else KeysOf(m) + [k];
    LookupIff(r, k, v);
    r
  }

  /** Setting `k` leaves the value of every other key as it was. */
  lemma {:induction false} UpdateVarOther(m: EnvVars, k: string, v: string, k': string)
    requires k' != k
    ensures Lookup(UpdateVar(m, k, v), k') == Lookup(m, k')
  {
    var r := UpdateVar(m, k, v);
    assert k' in KeysOf(r) <==> k' in KeysOf(m);
    if k' in KeysOf(m) {
      var w := Lookup(m, k').value;
      assert Entry(k', w) in r;
      LookupIff(r, k', w);
    }
  }

  lemma {:induction false} UpdateVarLookups(m: EnvVars, k: string, v: string)
    ensures forall k' :: k' != k ==> Lookup(UpdateVar(m, k, v), k') == Lookup(m, k')
  {
    forall k' | k' != k
      ensures Lookup(UpdateVar(m, k, v), k') == Lookup(m, k')
    {
      UpdateVarOther(m, k, v, k');
    }
  }

  /** `removeVar(key)`: `delete newVars[key]`. The entry of `k`, if any, leaves the enumeration
      order and the other entries keep theirs. */
  function RemoveVar(m: EnvVars, k: string): (r: EnvVars)
    ensures Lookup(r, k) == None
    ensures forall e :: e in r <==> e in m && e.key != k
    ensures k in KeysOf(m) ==> r == m[..KeyIndex(m, k)] + m[KeyIndex(m, k) + 1..]
    ensures k !in KeysOf(m) ==> r == m
  {
    if k !in KeysOf(m) then m
    else
      var i := KeyIndex(m, k);
      var r := m[..i] + m[i + 1..];
      RemoveVarKeys(m, i, r);
      r
  }

  /** An object with the entry at `i` deleted: its keys are still pairwise different, and its
      entries are those of `m` under the other keys. */
  lemma {:induction false} RemoveVarKeys(m: EnvVars, i: nat, r: seq<Entry>)
    requires i < |m|
    requires r == m[..i] + m[i + 1..]
    ensures Distinct(KeysOf(r))
    ensures m[i].key !in KeysOf(r)
    ensures forall e :: e in r <==> e in m && e.key != m[i].key
  {
    var ks := KeysOf(m);
    forall a, b | 0 <= a < b < |r|
      ensures r[a].key != r[b].key
    {
      var a' := if a < i then a else a + 1;
      var b' := if b < i then b else b + 1;
      assert r[a] == m[a'] && r[b] == m[b'];
      assert ks[a'] != ks[b'];
    }
    forall j | 0 <= j < |r|
      ensures r[j].key != m[i].key
    {
      var j' := if j < i then j else j + 1;
      assert r[j] == m[j'];
      assert ks[j'] != ks[i];
    }
    forall e | e in m && e.key != m[i].key
      ensures e in r
    {
      var j :| 0 <= j < |m| && m[j] == e;
      assert j != i;
      assert j < i ==> r[j] == e;
      assert j > i ==> r[j - 1] == e;
    }
  }

  /** Deleting `k` leaves the value of every other key as it was. */
  lemma {:induction false} RemoveVarOther(m: EnvVars, k: string, k': string)
    requires k' != k
    ensures Lookup(RemoveVar(m, k), k') == Lookup(m, k')
  {
    var r := RemoveVar(m, k);
    if k' in KeysOf(m) {
      LookupIff(r, k', Lookup(m, k').value);
    } else {
      assert forall e :: e in r ==> e in m;
    }
  }

  /** Deleting a key twice is deleting it once. */
  lemma {:induction false} RemoveVarIdempotent(m: EnvVars, k: string)
    ensures RemoveVar(RemoveVar(m, k), k) == RemoveVar(m, k)
  {
  }

  /** Deleting a key and setting it again moves it to the end of the enumeration order. */
  lemma {:induction false} RemoveThenUpdateMovesToEnd(m: EnvVars, k: string, v: string)
    ensures KeysOf(UpdateVar(RemoveVar(m, k), k, v)) == KeysOf(RemoveVar(m, k)) + [k]
  {
  }

  // ---------------------------------------------------------------------------
  // The editor component's state

  /** The editor's state: the variable object and the two fields of the custom-variable form. */
  datatype Editor = Editor(vars: EnvVars, customKey: string, customValue: string)

  /** The variables the editor starts with, one per category key in category order. */
  const InitialEntries: seq<Entry> := [
    Entry("REACT_APP_NAME", "Time Management Toolkit"),
    Entry("REACT_APP_VERSION", "1.0.0"),
    Entry("REACT_APP_DESCRIPTION", "Master your workload and learn to say no with confidence"),
    Entry("GENERATE_SOURCEMAP", "false"),
    Entry("DISABLE_ESLINT_PLUGIN", "false"),
    Entry("SKIP_PREFLIGHT_CHECK", "true"),
    Entry("FAST_REFRESH", "true"),
    Entry("BROWSER", "none"),
    Entry("NODE_ENV", "production"),
    Entry("NPM_CONFIG_PRODUCTION", "false"),
    Entry("CI", "false"),
    Entry("REACT_APP_ENABLE_PWA", "true"),
    Entry("REACT_APP_ENABLE_OFFLINE", "false"),
    Entry("REACT_APP_ENABLE_NOTIFICATIONS", "false"),
    Entry("REACT_APP_THEME_COLOR", "#4facfe"),
    Entry("REACT_APP_BACKGROUND_COLOR", "#ffffff")
  ]

  function InitialVars(): (m: EnvVars)
    ensures KeysOf(m) == CategorisedKeys
  {
    assert KeysOf(InitialEntries) == CategorisedKeys;
    CategorisedKeysDistinct();
    InitialEntries
  }

  /** The editor as the component mounts it: every starting variable belongs to a category,
      every category key has a variable, and the custom-variable form is empty. */
  function InitialEditor(): (r: Editor)
    ensures forall k :: Lookup(r.vars, k).Some? <==> IsCategorised(k)
    ensures r.customKey == "" && r.customValue == ""
  {
    CategorisedKeysDistinct();
    Editor(InitialVars(), "", "")
  }

  /** `addCustomVar`: when both form fields are non-empty, store the value under the key
      exactly as typed (no trimming) and clear the form; otherwise nothing happens. */
  function AddCustomVar(e: Editor): (r: Editor)
    ensures e.customKey == "" || e.customValue == "" ==> r == e
    ensures e.customKey != "" && e.customValue != "" ==>
      && Lookup(r.vars, e.customKey) == Some(e.customValue)
      && (forall k' :: k' != e.customKey ==> Lookup(r.vars, k') == Lookup(e.vars, k'))
      && r.customKey == "" && r.customValue == ""
  {
    if e.customKey != "" && e.customValue != "" then
      UpdateVarLookups(e.vars, e.customKey, e.customValue);
      Editor(UpdateVar(e.vars, e.customKey, e.customValue), "", "")
    else e
  }

  // ---------------------------------------------------------------------------
  // Categories

  /** A display group of the editor: a heading and the keys listed under it. */
  datatype Category = Category(name: string, keys: seq<string>)

  /** `envCategories`, in declaration order. */
  const Categories: seq<Category> := [
    Category("App Configuration", ["REACT_APP_NAME", "REACT_APP_VERSION", "REACT_APP_DESCRIPTION"]),
    Category("Build Settings", ["GENERATE_SOURCEMAP", "DISABLE_ESLINT_PLUGIN", "SKIP_PREFLIGHT_CHECK"]),
    Category("Development", ["FAST_REFRESH", "BROWSER"]),
    Category("Deployment", ["NODE_ENV", "NPM_CONFIG_PRODUCTION", "CI"]),
    Category("Features", ["REACT_APP_ENABLE_PWA", "REACT_APP_ENABLE_OFFLINE", "REACT_APP_ENABLE_NOTIFICATIONS"]),
    Category("Styling", ["REACT_APP_THEME_COLOR", "REACT_APP_BACKGROUND_COLOR"])
  ]

  /** The category keys flattened in order: `Object.values(envCategories).flat()`. */
  function FlatKeys(cs: seq<Category>): seq<string>
  {
    if cs == [] then [] else cs[0].keys + FlatKeys(cs[1..])
  }

  function Names(cs: seq<Category>): seq<string>
  {
    if cs == [] then [] else [cs[0].name] + Names(cs[1..])
  }

  /** The category keys, in category order. */
  const CategorisedKeys: seq<string> := [
    "REACT_APP_NAME", "REACT_APP_VERSION", "REACT_APP_DESCRIPTION",
    "GENERATE_SOURCEMAP", "DISABLE_ESLINT_PLUGIN", "SKIP_PREFLIGHT_CHECK",
    "FAST_REFRESH", "BROWSER",
    "NODE_ENV", "NPM_CONFIG_PRODUCTION", "CI",
    "REACT_APP_ENABLE_PWA", "REACT_APP_ENABLE_OFFLINE", "REACT_APP_ENABLE_NOTIFICATIONS",
    "REACT_APP_THEME_COLOR", "REACT_APP_BACKGROUND_COLOR"
  ]

  lemma FlatCategoryKeys()
    ensures FlatKeys(Categories) == CategorisedKeys
  {
    var cs, ks := Categories, CategorisedKeys;
    assert FlatKeys(cs[6..]) == [];
    assert FlatKeys(cs[5..]) == ks[14..];
    assert FlatKeys(cs[4..]) == ks[11..];
    assert FlatKeys(cs[3..]) == ks[8..];
    assert FlatKeys(cs[2..]) == ks[6..];
    assert FlatKeys(cs[1..]) == ks[3..];
  }

  // Solver scaffolding for `CategorisedKeysDistinct`: comparing short signatures is cheaper
  // than comparing the keys themselves.

  /** Length and eleventh character (first for short keys): enough to tell the category
      keys apart. */
  function KeySignature(k: string): (int, char)
  {
    (|k|, if |k| > 10 then k[10] else if |k| > 0 then k[0] else ' ')
  }

  /** Keys whose signatures are pairwise different are pairwise different. */
  lemma {:induction false} DistinctBySignature(ks: seq<string>, sigs: seq<(int, char)>)
    requires |sigs| == |ks| && Distinct(sigs)
    requires forall i :: 0 <= i < |ks| ==> KeySignature(ks[i]) == sigs[i]
    ensures Distinct(ks)
  {
  }

  lemma CategorisedKeysDistinct()
    ensures Distinct(CategorisedKeys)
  {
    DistinctBySignature(CategorisedKeys, [
      (14, 'N'), (17, 'V'), (21, 'D'), (18, 'O'),
      (21, 'L'), (20, 'I'), (12, 'S'), (7, 'B'),
      (8, 'N'), (21, '_'), (2, 'C'), (20, 'E'),
      (24, 'E'), (30, 'E'), (21, 'T'), (26, 'B')
    ]);
  }

  /** The flattened category lists hold sixteen keys with no key listed twice: the six
      categories are pairwise disjoint and no category names a key twice. */
  lemma CategoriesDisjoint()
    ensures Distinct(FlatKeys(Categories))
    ensures forall k :: k in FlatKeys(Categories) <==> k in CategorisedKeys
  {
    FlatCategoryKeys();
    CategorisedKeysDistinct();
  }

  /** A key that belongs to some category (the test behind the custom-variable filter). */
  predicate IsCategorised(k: string)
  {
    k in CategorisedKeys
  }

  /** Every variable the editor starts with belongs to a category. */
  lemma InitialVarsCategorised()
    ensures forall e :: e in InitialVars() ==> IsCategorised(e.key)
  {
    var m := InitialVars();
    forall e | e in m ensures IsCategorised(e.key) {
      var i :| 0 <= i < |m| && m[i] == e;
      assert KeysOf(m)[i] == e.key;
    }
  }

  /** A key or value that survives the `KEY=VALUE` and `KEY="VALUE"` line formats unchanged:
      no newline in either, no `=` in the key, and a key that does not start a comment. */
  predicate PlainEntry(e: Entry)
  {
    && '\n' !in e.key && '\n' !in e.value && '=' !in e.key
    && (e.key == "" || e.key[0] != '#')
  }
}

=== FILE: env_file.dfy ===
/** The `.env.local` text the editor generates (`generateEnvFile` in EnviromentEditor.js), and
    a dotenv-style reader used to state what the text contains. The structure is stated for
    any category table whose keys are pairwise different; the editor's own table is one. */
module EnvFile {
  import opened Wrappers
  import opened Text
  import opened Seqs
  import opened EnvEditor
  import opened Toolkit

  /** One line of the generated file: a `# ` comment, an empty line, or `KEY=VALUE`. */
  datatype Line = Comment(text: string) | Blank | Assign(key: string, value: string)

  const Title := ToolkitName + " - Environment Variables"
  const GeneratedOn := "Generated on "
  const CustomHeading := "Custom Variables"

  // ---------------------------------------------------------------------------
  // Generating the file

  /** Under a category heading: `KEY=VALUE` for each listed key present in `m`, in list order. */
  function PresentLines(m: EnvVars, keys: seq<string>): seq<Line>
  {
    FlatMap(k => KeyLine(m, k), keys)
  }

  /** `KEY=VALUE` for `k` when `m` holds it, nothing otherwise. */
  function KeyLine(m: EnvVars, k: string): seq<Line>
  {
    match Lookup(m, k)
    case Some(v) => [Assign(k, v)]
    case None => []
  }

  /** Every line is `KEY=VALUE` for a listed key, with the value `m` holds for it. */
  lemma {:induction false} PresentLinesSound(m: EnvVars, keys: seq<string>)
    ensures forall l :: l in PresentLines(m, keys) ==>
      l.Assign? && l.key in keys && Lookup(m, l.key) == Some(l.value)
  {
    if keys != [] {
      PresentLinesSound(m, keys[1..]);
    }
  }

  /** Every listed key present in `m` has its line. */
  lemma {:induction false} PresentLinesComplete(m: EnvVars, keys: seq<string>, k: string)
    requires k in keys && k in KeysOf(m)
    ensures Lookup(m, k).Some? && Assign(k, Lookup(m, k).value) in PresentLines(m, keys)
  {
    if keys[0] != k {
      PresentLinesComplete(m, keys[1..], k);
    }
  }

  /** Lines follow the key list: the lines for `a + b` are those for `a` followed by those for
      `b`. */
  lemma PresentLinesAppend(m: EnvVars, a: seq<string>, b: seq<string>)
    ensures PresentLines(m, a + b) == PresentLines(m, a) + PresentLines(m, b)
  {
    FlatMapAppend(k => KeyLine(m, k), a, b);
  }

  /** A single key gives its `KEY=VALUE` line exactly when it is present. */
  lemma PresentLinesSingle(m: EnvVars, k: string)
    ensures PresentLines(m, [k]) == if k in KeysOf(m) then [Assign(k, Lookup(m, k).value)] else []
  {
    var f := k' => KeyLine(m, k');
    assert [k][1..] == [];
    assert FlatMap(f, [k]) == f(k) + FlatMap(f, []);
    assert f(k) + [] == KeyLine(m, k);
  }

  /** One category's block: its heading, its present keys, then an empty line. */
  function Section(m: EnvVars, c: Category): seq<Line>
  {
    [Comment(c.name)] + PresentLines(m, c.keys) + [Blank]
  }

  /** Each category's block, in table order. */
  function CategorySections(m: EnvVars, cs: seq<Category>): seq<Line>
  {
    if cs == [] then []
    else [Comment(cs[0].name)] + PresentLines(m, cs[0].keys) + [Blank] + CategorySections(m, cs[1..])
  }

  lemma CategorySectionsCons(m: EnvVars, cs: seq<Category>)
    requires cs != []
    ensures CategorySections(m, cs) == Section(m, cs[0]) + CategorySections(m, cs[1..])
  {
  }

  /** The category blocks, one per category in table order. */
  function Sections(m: EnvVars, cs: seq<Category>): (r: seq<seq<Line>>)
    ensures |r| == |cs|
    ensures forall i :: 0 <= i < |cs| ==> r[i] == Section(m, cs[i])
  {
    if cs == [] then [] else [Section(m, cs[0])] + Sections(m, cs[1..])
  }

  /** The category part of the file is exactly the category blocks one after another. */
  lemma {:induction false} CategorySectionsBlocks(m: EnvVars, cs: seq<Category>)
    ensures CategorySections(m, cs) == Concat(Sections(m, cs))
  {
    if cs != [] {
      CategorySectionsBlocks(m, cs[1..]);
      var bs := Sections(m, cs);
      assert bs[0] == Section(m, cs[0]) && bs[1..] == Sections(m, cs[1..]);
      assert Section(m, cs[0]) == [Comment(cs[0].name)] + PresentLines(m, cs[0].keys) + [Blank];
    }
  }

  /** Where the block of category `i` begins among the category blocks. */
  function SectionStart(m: EnvVars, cs: seq<Category>, i: nat): nat
    requires i <= |cs|
  {
    Offset(Sections(m, cs), i)
  }

  /** Category `i`'s block sits among the category blocks at its start. */
  lemma CategorySectionAt(m: EnvVars, cs: seq<Category>, i: nat)
    requires i < |cs|
    ensures SectionStart(m, cs, i) + |Section(m, cs[i])| <= |CategorySections(m, cs)|
    ensures var lo := SectionStart(m, cs, i);
      CategorySections(m, cs)[lo..lo + |Section(m, cs[i])|] == Section(m, cs[i])
  {
    CategorySectionsBlocks(m, cs);
    ConcatAt(Sections(m, cs), i);
  }

  /** The blocks follow one another in table order: the next block begins where block `i`
      ends. */
  lemma SectionStartNext(m: EnvVars, cs: seq<Category>, i: nat)
    requires i < |cs|
    ensures SectionStart(m, cs, i + 1) == SectionStart(m, cs, i) + |Section(m, cs[i])|
  {
    OffsetNext(Sections(m, cs), i);
  }

  /** The last block ends the run of category blocks. */
  lemma SectionStartEnd(m: EnvVars, cs: seq<Category>)
    ensures SectionStart(m, cs, |cs|) == |CategorySections(m, cs)|
  {
    CategorySectionsBlocks(m, cs);
    OffsetEnd(Sections(m, cs));
  }

  /** The entries whose key is not in `listed`, in enumeration order. */
  function Unlisted(m: seq<Entry>, listed: seq<string>): (r: seq<Entry>)
    ensures forall e :: e in r <==> e in m && e.key !in listed
  {
    if m == [] then []
    else (if m[0].key in listed then [] else [m[0]]) + Unlisted(m[1..], listed)
  }

  /** The filter follows enumeration order: the unlisted entries of `a + b` are those of `a`
      followed by those of `b`. */
  lemma {:induction false} UnlistedAppend(a: seq<Entry>, b: seq<Entry>, listed: seq<string>)
    ensures Unlisted(a + b, listed) == Unlisted(a, listed) + Unlisted(b, listed)
  {
    if a == [] {
      assert a + b == b;
    } else {
      assert (a + b)[0] == a[0];
      assert (a + b)[1..] == a[1..] + b;
      UnlistedAppend(a[1..], b, listed);
    }
  }

  /** One entry is kept exactly when its key is not listed. */
  lemma UnlistedSingle(e: Entry, listed: seq<string>)
    ensures Unlisted([e], listed) == if e.key in listed then [] else [e]
  {
    assert [e][1..] == [];
  }

  function AssignLines(es: seq<Entry>): (ls: seq<Line>)
    ensures |ls| == |es|
    ensures forall i :: 0 <= i < |es| ==> ls[i] == Assign(es[i].key, es[i].value)
  {
    if es == [] then [] else [Assign(es[0].key, es[0].value)] + AssignLines(es[1..])
  }

  /** The custom section: a heading and the unlisted entries, present only when there are any. */
  function CustomSection(m: EnvVars, listed: seq<string>): seq<Line>
  {
    var custom := Unlisted(m, listed);
    if custom == [] then [] else [Comment(CustomHeading)] + AssignLines(custom)
  }

  /** The title, the timestamp and an empty line. */
  function Preamble(date: string): seq<Line>
  {
    [Comment(Title), Comment(GeneratedOn + date), Blank]
  }

  /** The lines of the file for category table `cs` and timestamp `date`. */
  function FileLines(m: EnvVars, date: string, cs: seq<Category>): seq<Line>
  {
    Preamble(date) + CategorySections(m, cs) + CustomSection(m, FlatKeys(cs))
  }

  /** Category `i`'s heading, its present keys and an empty line sit in the file right after
      the preamble and the blocks of the categories before it. */
  lemma {:induction false} FileSectionAt(m: EnvVars, date: string, cs: seq<Category>, i: nat)
    requires i < |cs|
    ensures var lo := |Preamble(date)| + SectionStart(m, cs, i);
      && lo + |Section(m, cs[i])| <= |FileLines(m, date, cs)|
      && FileLines(m, date, cs)[lo..lo + |Section(m, cs[i])|] == Section(m, cs[i])
  {
    var pre := Preamble(date);
    var cats := CategorySections(m, cs);
    var custom := CustomSection(m, FlatKeys(cs));
    CategorySectionAt(m, cs, i);
    var lo := SectionStart(m, cs, i);
    var hi := lo + |Section(m, cs[i])|;
    SliceAfter(pre, cats, lo, hi);
    SliceWithin(pre + cats, custom, |pre| + lo, |pre| + hi);
  }

  /** The file ends with the custom section: nothing when every key is in some category,
      otherwise the "Custom Variables" heading followed by one `KEY=VALUE` line per unlisted
      entry, in enumeration order. */
  lemma {:induction false} CustomSectionAt(m: EnvVars, date: string, cs: seq<Category>)
    ensures var rest := FileLines(m, date, cs)[|Preamble(date)| + |CategorySections(m, cs)|..];
      var custom := Unlisted(m, FlatKeys(cs));
      && (custom == [] ==> rest == [])
      && (custom != [] ==>
            && |rest| == |custom| + 1
            && rest[0] == Comment(CustomHeading)
            && forall i :: 0 <= i < |custom| ==> rest[i + 1] == Assign(custom[i].key, custom[i].value))
  {
    var pre := Preamble(date);
    var cats := CategorySections(m, cs);
    var section := CustomSection(m, FlatKeys(cs));
    var ls := FileLines(m, date, cs);
    assert ls == (pre + cats) + section;
    assert ls[|pre| + |cats|..] == section;
  }

  /** The lines of `generateEnvFile`; `date` stands for the caller's `toLocaleString()`. */
  function EnvFileLines(m: EnvVars, date: string): seq<Line>
  {
    FileLines(m, date, Categories)
  }

  function RenderLine(l: Line): string
  {
    match l
    case Comment(t) => "# " + t
    case Blank => ""
    case Assign(k, v) => k + "=" + v
  }

  function RenderLines(ls: seq<Line>): (r: seq<string>)
    ensures |r| == |ls|
    ensures forall i :: 0 <= i < |ls| ==> r[i] == RenderLine(ls[i])
  {
    if ls == [] then [] else [RenderLine(ls[0])] + RenderLines(ls[1..])
  }

  /** `generateEnvFile()`: every line of the file followed by a newline. */
  function GenerateEnvFile(m: EnvVars, date: string): string
  {
    Unlines(RenderLines(EnvFileLines(m, date)))
  }

  /** The generated text opens with the title comment line and ends with a newline. */
  lemma GeneratedFileShape(m: EnvVars, date: string)
    ensures var r := GenerateEnvFile(m, date);
      StartsWith(r, "# " + Title + "\n") && r[|r| - 1] == '\n'
  {
    TitleLineFirst(m, date, Categories);
  }

  lemma TitleLineFirst(m: EnvVars, date: string, cs: seq<Category>)
    ensures var rs := RenderLines(FileLines(m, date, cs)); rs != [] && rs[0] == "# " + Title
  {
    var pre := Preamble(date);
    var ls := FileLines(m, date, cs);
    assert ls[0] == pre[0];
  }

  // ---------------------------------------------------------------------------
  // Reading a `.env` file back

  /** A line as a dotenv reader sees it: empty, a `#` comment, or `KEY=VALUE` split at the
      first `=`; any other line is rejected. */
  function ParseLine(s: string): Option<Line>
  {
    if s == "" then Some(Blank)
    else if s[0] == '#' then Some(Comment(if |s| >= 2 && s[1] == ' ' then s[2..] else s[1..]))
    else if '=' in s then
      var i := IndexOf(s, '=');
      Some(Assign(s[..i], s[i + 1..]))
    else None
  }

  function ParseLines(ss: seq<string>): (r: Option<seq<Line>>)
    ensures r.Some? ==> |r.value| == |ss|
  {
    if ss == [] then Some([])
    else match (ParseLine(ss[0]), ParseLines(ss[1..]))
      case (Some(l), Some(ls)) => Some([l] + ls)
      case _ => None
  }

  /** Reads a newline-terminated file back into its lines. */
  function ParseEnvFile(text: string): Option<seq<Line>>
  {
    var pieces := Split(text, '\n');
    if pieces[|pieces| - 1] != "" then None
    else ParseLines(pieces[..|pieces| - 1])
  }

  predicate PlainLine(l: Line)
  {
    match l
    case Comment(t) => '\n' !in t
    case Blank => true
    case Assign(k, v) => PlainEntry(Entry(k, v))
  }

  /** Reading a rendered plain line gives the line back. */
  lemma {:induction false} ParseRenderLine(l: Line)
    requires PlainLine(l)
    ensures ParseLine(RenderLine(l)) == Some(l)
  {
    match l
    case Comment(t) =>
      assert ("# " + t)[2..] == t;
    case Blank =>
    case Assign(k, v) =>
      var s := k + "=" + v;
      assert s == k + ['='] + v;
      IndexOfAfter(k, '=', v);
      assert s[..|k|] == k && s[|k| + 1..] == v;
      assert k != "" ==> s[0] == k[0];
  }

  /** In any object the editor stores a key holding `=` as typed, but its `KEY=VALUE` line
      reads back split at the first `=`: key `A=B` with value `v` comes back as key `A` with
      value `B=v`. */
  lemma KeyWithEqualsMisread(m: EnvVars)
    ensures Lookup(AddCustomVar(Editor(m, "A=B", "v")).vars, "A=B") == Some("v")
    ensures ParseLine(RenderLine(Assign("A=B", "v"))) == Some(Assign("A", "B=v"))
  {
    var s := RenderLine(Assign("A=B", "v"));
    assert s == "A=B=v";
    assert s[1] == '=' && s[0] != '=';
    assert IndexOf(s, '=') == 1;
    assert s[..1] == "A" && s[2..] == "B=v";
  }

  /** A key starting with `#` is stored as typed, but its `KEY=VALUE` line reads back as a
      comment: key `#X` with value `v` comes back as the comment `X=v`. */
  lemma KeyWithHashMisread(m: EnvVars)
    ensures Lookup(AddCustomVar(Editor(m, "#X", "v")).vars, "#X") == Some("v")
    ensures ParseLine(RenderLine(Assign("#X", "v"))) == Some(Comment("X=v"))
  {
    var s := RenderLine(Assign("#X", "v"));
    assert s == "#X=v";
    assert s[1..] == "X=v";
  }

  lemma {:induction false} ParseRenderLines(ls: seq<Line>)
    requires forall l :: l in ls ==> PlainLine(l)
    ensures ParseLines(RenderLines(ls)) == Some(ls)
  {
    if ls != [] {
      var rs := RenderLines(ls);
      assert rs[0] == RenderLine(ls[0]) && rs[1..] == RenderLines(ls[1..]);
      ParseRenderLine(ls[0]);
      ParseRenderLines(ls[1..]);
      ParseLinesCons(rs);
      assert ls == [ls[0]] + ls[1..];
    }
  }

  lemma ParseLinesCons(ss: seq<string>)
    requires ss != [] && ParseLine(ss[0]).Some? && ParseLines(ss[1..]).Some?
    ensures ParseLines(ss) == Some([ParseLine(ss[0]).value] + ParseLines(ss[1..]).value)
  {
  }

  /** A newline-terminated rendering of plain lines reads back as those lines. */
  lemma {:induction false} ParseRenderedFile(ls: seq<Line>)
    requires forall l :: l in ls ==> PlainLine(l)
    ensures ParseEnvFile(Unlines(RenderLines(ls))) == Some(ls)
  {
    var rs := RenderLines(ls);
    forall i | 0 <= i < |rs| ensures '\n' !in rs[i] {
      assert PlainLine(ls[i]);
      match ls[i]
      case Comment(t) => assert rs[i] == "# " + t;
      case Blank =>
      case Assign(k, v) => assert rs[i] == k + "=" + v;
    }
    SplitUnlines(rs);
    assert (rs + [""])[..|rs|] == rs;
    ParseRenderLines(ls);
  }

  // ---------------------------------------------------------------------------
  // Headings

  /** The texts of the comment lines, in order. */
  function Comments(ls: seq<Line>): seq<string>
  {
    if ls == [] then [] else (if ls[0].Comment? then [ls[0].text] else []) + Comments(ls[1..])
  }

  lemma {:induction false} CommentsAppend(a: seq<Line>, b: seq<Line>)
    ensures Comments(a + b) == Comments(a) + Comments(b)
  {
    if a != [] {
      CommentsAppend(a[1..], b);
      assert (a + b)[0] == a[0];
      assert (a + b)[1..] == a[1..] + b;
    } else {
      assert a + b == b;
    }
  }

  lemma {:induction false} CommentIn(ls: seq<Line>, l: Line)
    requires l in ls && l.Comment?
    ensures l.text in Comments(ls)
  {
    if ls[0] != l {
      CommentIn(ls[1..], l);
    }
  }

  lemma {:induction false} PresentLinesHaveNoComments(m: EnvVars, keys: seq<string>)
    ensures Comments(PresentLines(m, keys)) == []
  {
    if keys != [] {
      var head := KeyLine(m, keys[0]);
      PresentLinesHaveNoComments(m, keys[1..]);
      CommentsAppend(head, PresentLines(m, keys[1..]));
    }
  }

  /** A category block has one comment: its heading. */
  lemma SectionComments(m: EnvVars, c: Category)
    ensures Comments(Section(m, c)) == [c.name]
  {
    var present := PresentLines(m, c.keys);
    assert Section(m, c) == [Comment(c.name)] + (present + [Blank]);
    PresentLinesHaveNoComments(m, c.keys);
    CommentsAppend([Comment(c.name)], present + [Blank]);
    CommentsAppend(present, [Blank]);
    assert Comments([Blank]) == [] by {
      assert [Blank][1..] == [];
    }
    assert Comments([Comment(c.name)]) == [c.name] by {
      assert [Comment(c.name)][1..] == [];
    }
  }

  lemma {:induction false} CategorySectionComments(m: EnvVars, cs: seq<Category>)
    ensures Comments(CategorySections(m, cs)) == Names(cs)
  {
    if cs != [] {
      CategorySectionsCons(m, cs);
      CategorySectionComments(m, cs[1..]);
      SectionComments(m, cs[0]);
      CommentsAppend(Section(m, cs[0]), CategorySections(m, cs[1..]));
    }
  }

  lemma {:induction false} AssignLinesHaveNoComments(es: seq<Entry>)
    ensures Comments(AssignLines(es)) == []
  {
    if es != [] {
      AssignLinesHaveNoComments(es[1..]);
    }
  }

  /** The preamble holds the title and the timestamp comments and no `KEY=VALUE` line. */
  lemma {:induction false} PreambleLines(date: string, k: string)
    ensures Comments(Preamble(date)) == [Title, GeneratedOn + date]
    ensures KeyCount(Preamble(date), k) == 0
  {
    var pre := Preamble(date);
    var tail := [Blank];
    assert pre[1..] == [Comment(GeneratedOn + date)] + tail;
    assert tail[1..] == [];
    assert Comments(tail) == [] && KeyCount(tail, k) == 0;
    assert Comments(pre[1..]) == [GeneratedOn + date];
  }

  /** The comment lines of the file for table `cs`: title, timestamp, every category heading
      in table order whether or not any of its keys remain, and the custom heading exactly
      when some key is in no category. */
  lemma {:induction false} FileHeadings(m: EnvVars, date: string, cs: seq<Category>)
    ensures Comments(FileLines(m, date, cs)) ==
      [Title, GeneratedOn + date] + Names(cs)
      + (if exists e :: e in m && e.key !in FlatKeys(cs) then [CustomHeading] else [])
  {
    var pre := Preamble(date);
    var cats := CategorySections(m, cs);
    var custom := CustomSection(m, FlatKeys(cs));
    CommentsAppend(pre + cats, custom);
    CommentsAppend(pre, cats);
    PreambleLines(date, "");
    CategorySectionComments(m, cs);
    var ce := Unlisted(m, FlatKeys(cs));
    if ce != [] {
      AssignLinesHaveNoComments(ce);
      CommentsAppend([Comment(CustomHeading)], AssignLines(ce));
      assert ce[0] in m && ce[0].key !in FlatKeys(cs);
    } else {
      assert forall e :: e in m ==> e.key in FlatKeys(cs);
    }
  }

  /** The editor's file: title, timestamp, the six headings "App Configuration" to "Styling"
      in that order, and "Custom Variables" exactly when some key belongs to no category. */
  lemma {:induction false} EnvFileHeadings(m: EnvVars, date: string)
    ensures Comments(EnvFileLines(m, date)) ==
      [Title, GeneratedOn + date]
      + ["App Configuration", "Build Settings", "Development", "Deployment", "Features", "Styling"]
      + (if exists e :: e in m && !IsCategorised(e.key) then [CustomHeading] else [])
  {
    FileHeadings(m, date, Categories);
    CategoriesDisjoint();
    CategoryNames();
  }

  // ---------------------------------------------------------------------------
  // Keys

  /** Number of `KEY=VALUE` lines for `k`. */
  function KeyCount(ls: seq<Line>, k: string): nat
  {
    if ls == [] then 0 else (if ls[0].Assign? && ls[0].key == k then 1 else 0) + KeyCount(ls[1..], k)
  }

  lemma {:induction false} KeyCountAppend(a: seq<Line>, b: seq<Line>, k: string)
    ensures KeyCount(a + b, k) == KeyCount(a, k) + KeyCount(b, k)
  {
    if a != [] {
      KeyCountAppend(a[1..], b, k);
      assert (a + b)[0] == a[0];
      assert (a + b)[1..] == a[1..] + b;
    } else {
      assert a + b == b;
    }
  }

  lemma {:induction false} PresentLinesCount(m: EnvVars, keys: seq<string>, k: string)
    requires Distinct(keys)
    ensures KeyCount(PresentLines(m, keys), k) == if k in keys && k in KeysOf(m) then 1 else 0
  {
    if keys != [] {
      DistinctAppend([keys[0]], keys[1..]);
      assert [keys[0]] + keys[1..] == keys;
      PresentLinesCount(m, keys[1..], k);
      var head := KeyLine(m, keys[0]);
      KeyCountAppend(head, PresentLines(m, keys[1..]), k);
    }
  }

  lemma {:induction false} CategorySectionsCount(m: EnvVars, cs: seq<Category>, k: string)
    requires Distinct(FlatKeys(cs))
    ensures KeyCount(CategorySections(m, cs), k) == if k in FlatKeys(cs) && k in KeysOf(m) then 1 else 0
  {
    if cs != [] {
      DistinctAppend(cs[0].keys, FlatKeys(cs[1..]));
      CategorySectionsCons(m, cs);
      SectionCount(m, cs[0], k);
      CategorySectionsCount(m, cs[1..], k);
      KeyCountAppend(Section(m, cs[0]), CategorySections(m, cs[1..]), k);
    }
  }

  /** A category block holds the line of each of its present keys once. */
  lemma SectionCount(m: EnvVars, c: Category, k: string)
    requires Distinct(c.keys)
    ensures KeyCount(Section(m, c), k) == if k in c.keys && k in KeysOf(m) then 1 else 0
  {
    var present := PresentLines(m, c.keys);
    assert Section(m, c) == [Comment(c.name)] + (present + [Blank]);
    PresentLinesCount(m, c.keys, k);
    KeyCountAppend([Comment(c.name)], present + [Blank], k);
    KeyCountAppend(present, [Blank], k);
    assert KeyCount([Blank], k) == 0 by {
      assert [Blank][1..] == [];
    }
    assert KeyCount([Comment(c.name)], k) == 0 by {
      assert [Comment(c.name)][1..] == [];
    }
  }

  /** The custom section's `KEY=VALUE` lines hold each unlisted key of the object once. */
  lemma {:induction false} UnlistedCount(m: EnvVars, listed: seq<string>, k: string)
    ensures KeyCount(AssignLines(Unlisted(m, listed)), k) ==
      if k in KeysOf(m) && k !in listed then 1 else 0
  {
    if m != [] {
      TailKeys(m);
      var rest := Unlisted(m[1..], listed);
      UnlistedCount(m[1..], listed, k);
      if m[0].key !in listed {
        var ls := AssignLines([m[0]] + rest);
        assert ls[1..] == AssignLines(rest);
        assert ls == [ls[0]] + ls[1..];
      } else {
        assert Unlisted(m, listed) == rest;
      }
    }
  }

  /** Every key of the object appears in exactly one `KEY=VALUE` line of the file, and no
      other key appears, when the table lists no key twice. */
  lemma {:induction false} FileKeyCount(m: EnvVars, date: string, cs: seq<Category>, k: string)
    requires Distinct(FlatKeys(cs))
    ensures KeyCount(FileLines(m, date, cs), k) == if k in KeysOf(m) then 1 else 0
  {
    var pre := Preamble(date);
    var cats := CategorySections(m, cs);
    var custom := CustomSection(m, FlatKeys(cs));
    KeyCountAppend(pre + cats, custom, k);
    KeyCountAppend(pre, cats, k);
    PreambleLines(date, k);
    CategorySectionsCount(m, cs, k);
    var ce := Unlisted(m, FlatKeys(cs));
    UnlistedCount(m, FlatKeys(cs), k);
    if ce != [] {
      KeyCountAppend([Comment(CustomHeading)], AssignLines(ce), k);
    }
  }

  /** Every `KEY=VALUE` line of the file carries the value the object holds for that key. */
  lemma {:induction false} CategorySectionsValues(m: EnvVars, cs: seq<Category>)
    ensures forall l :: l in CategorySections(m, cs) && l.Assign? ==> Lookup(m, l.key) == Some(l.value)
  {
    if cs != [] {
      CategorySectionsValues(m, cs[1..]);
      PresentLinesSound(m, cs[0].keys);
    }
  }

  lemma {:induction false} FileValues(m: EnvVars, date: string, cs: seq<Category>)
    ensures forall l :: l in FileLines(m, date, cs) && l.Assign? ==> Lookup(m, l.key) == Some(l.value)
  {
    CategorySectionsValues(m, cs);
    var ce := Unlisted(m, FlatKeys(cs));
    forall l | l in CustomSection(m, FlatKeys(cs)) && l.Assign?
      ensures Lookup(m, l.key) == Some(l.value)
    {
      var i :| 0 <= i < |AssignLines(ce)| && AssignLines(ce)[i] == l;
      assert ce[i] in m;
      LookupIff(m, l.key, l.value);
    }
  }

  /** The editor's file holds each key of the object on exactly one `KEY=VALUE` line, with its
      value, and holds no other key. */
  lemma {:induction false} EnvFileKeys(m: EnvVars, date: string)
    ensures forall k :: KeyCount(EnvFileLines(m, date), k) == if k in KeysOf(m) then 1 else 0
    ensures forall l :: l in EnvFileLines(m, date) && l.Assign? ==> Lookup(m, l.key) == Some(l.value)
  {
    CategoriesDisjoint();
    forall k
      ensures KeyCount(EnvFileLines(m, date), k) == if k in KeysOf(m) then 1 else 0
    {
      FileKeyCount(m, date, Categories, k);
    }
    FileValues(m, date, Categories);
  }

  // ---------------------------------------------------------------------------
  // Reading the generated file

  // Solver scaffolding: the `*Plain` lemmas state facts about literals once, so that the
  // read-back proofs do not unfold the literals themselves.

  /** No fixed comment text of the file holds a newline. */
  lemma HeadingsPlain()
    ensures '\n' !in Title && '\n' !in GeneratedOn && '\n' !in CustomHeading
    ensures forall t :: t in Names(Categories) ==> '\n' !in t
  {
    TitlePlain();
    SubheadingsPlain();
    CategoryNamesPlain();
  }

  lemma SubheadingsPlain()
    ensures '\n' !in GeneratedOn && '\n' !in CustomHeading
  {
    assert '\n' !in GeneratedOn;
    assert '\n' !in CustomHeading;
  }

  lemma TitlePlain()
    ensures '\n' !in Title
  {
    assert ToolkitName == "Time Management Toolkit";
    assert '\n' !in ToolkitName;
    assert '\n' !in " - Environment Variables";
  }

  /** The six category headings in table order. */
  lemma CategoryNames()
    ensures Names(Categories) ==
      ["App Configuration", "Build Settings", "Development", "Deployment", "Features", "Styling"]
  {
    var cs := Categories;
    assert Names(cs[6..]) == [];
    assert Names(cs[5..]) == [cs[5].name];
    assert Names(cs[4..]) == [cs[4].name, cs[5].name];
    assert Names(cs[3..]) == [cs[3].name, cs[4].name, cs[5].name];
    assert Names(cs[2..]) == [cs[2].name, cs[3].name, cs[4].name, cs[5].name];
    assert Names(cs[1..]) == [cs[1].name, cs[2].name, cs[3].name, cs[4].name, cs[5].name];
  }

  lemma HeadingLiteralsPlain()
    ensures '\n' !in "App Configuration" && '\n' !in "Build Settings" && '\n' !in "Development"
    ensures '\n' !in "Deployment" && '\n' !in "Features" && '\n' !in "Styling"
  {
  }

  lemma CategoryNamesPlain()
    ensures forall t :: t in Names(Categories) ==> '\n' !in t
  {
    CategoryNames();
    HeadingLiteralsPlain();
  }

  /** With plain headings, timestamp and entries, every line of the file is plain. */
  lemma {:induction false} FileLinesPlain(m: EnvVars, date: string, cs: seq<Category>)
    requires '\n' !in Title && '\n' !in GeneratedOn && '\n' !in CustomHeading && '\n' !in date
    requires forall t :: t in Names(cs) ==> '\n' !in t
    requires forall e :: e in m ==> PlainEntry(e)
    ensures forall l :: l in FileLines(m, date, cs) ==> PlainLine(l)
  {
    FileValues(m, date, cs);
    forall l | l in FileLines(m, date, cs)
      ensures PlainLine(l)
    {
      if l.Assign? {
        LookupIff(m, l.key, l.value);
      } else if l.Comment? {
        if l in CategorySections(m, cs) {
          CategorySectionComments(m, cs);
          CommentIn(CategorySections(m, cs), l);
        } else if l in CustomSection(m, FlatKeys(cs)) {
          assert l == Comment(CustomHeading);
        } else {
          assert l.text == Title || l.text == GeneratedOn + date;
        }
      }
    }
  }

  /** For any category table with newline-free headings, the rendered file reads back line by
      line as the lines it was rendered from, provided the timestamp and every variable are
      plain. */
  lemma {:induction false} FileRoundTrip(m: EnvVars, date: string, cs: seq<Category>)
    requires '\n' !in date
    requires forall t :: t in Names(cs) ==> '\n' !in t
    requires forall e :: e in m ==> PlainEntry(e)
    ensures ParseEnvFile(Unlines(RenderLines(FileLines(m, date, cs)))) == Some(FileLines(m, date, cs))
  {
    TitlePlain();
    SubheadingsPlain();
    FileLinesPlain(m, date, cs);
    ParseRenderedFile(FileLines(m, date, cs));
  }

  /** The generated file reads back, line by line, as the lines it was generated from,
      provided the timestamp has no newline and every variable is plain. */
  lemma {:induction false} EnvFileRoundTrip(m: EnvVars, date: string)
    requires '\n' !in date
    requires forall e :: e in m ==> PlainEntry(e)
    ensures ParseEnvFile(GenerateEnvFile(m, date)) == Some(EnvFileLines(m, date))
  {
    HeadingsPlain();
    FileRoundTrip(m, date, Categories);
  }

  /** What a reader of the generated file finds: each key of the object on exactly one
      `KEY=VALUE` line carrying its value, and no other key. */
  lemma {:induction false} EnvFileReadsBack(m: EnvVars, date: string)
    requires '\n' !in date
    requires forall e :: e in m ==> PlainEntry(e)
    ensures ParseEnvFile(GenerateEnvFile(m, date)).Some?
    ensures var ls := ParseEnvFile(GenerateEnvFile(m, date)).value;
      && (forall k :: KeyCount(ls, k) == if k in KeysOf(m) then 1 else 0)
      && (forall l :: l in ls && l.Assign? ==> Entry(l.key, l.value) in m)
  {
    EnvFileRoundTrip(m, date);
    EnvFileKeys(m, date);
  }
}

=== FILE: saying_no.dfy ===
/** The "Should I Say Yes?" decision tree of the Saying No page (src/components/sayingno.js):
    two answers, the buttons each state renders, reset, and the verdict panels. */
module SayingNo {
  import opened Wrappers

  /** The answer strings the buttons store: 'yes', 'no' and 'maybe'. */
  datatype Answer = Yes | No | Maybe

  /** `selectedPriority` and `selectedCapacity`; `None` is `null`. */
  datatype Tree = Tree(priority: Option<Answer>, capacity: Option<Answer>)

  /** Both answers start unset. */
  const Initial := Tree(None, None)

  /** A button of the decision tree. */
  datatype Click = ChoosePriority(answer: Answer) | ChooseCapacity(answer: Answer) | Reset

  /** The buttons a state renders: the three priority buttons always; the two capacity buttons
      ('yes' and 'no') only while the priority answer is 'yes'; the reset button while either
      answer is set. */
  predicate Shown(t: Tree, c: Click)
  {
    match c
    case ChoosePriority(_) => true
    case ChooseCapacity(a) => t.priority == Some(Yes) && a != Maybe
    case Reset => t.priority.Some? || t.capacity.Some?
  }

  /** The reset button is on screen exactly when the tree has left its initial state. */
  lemma {:induction false} ResetShownIff(t: Tree)
    ensures Shown(t, Reset) <==> t != Initial
  {
  }

  /** The state after clicking a rendered button. */
  function Step(t: Tree, c: Click): (r: Tree)
    requires Shown(t, c)
    ensures c.ChoosePriority? ==> r == t.(priority := Some(c.answer))
    ensures c.ChooseCapacity? ==> r == t.(capacity := Some(c.answer))
    ensures c == Reset ==> r == Initial
  {
    match c
    case ChoosePriority(a) => Tree(Some(a), t.capacity)
    case ChooseCapacity(a) => Tree(t.priority, Some(a))
    case Reset => Tree(None, None)
  }

  /** Clicks one after another, failing at the first button that is not on screen. A run
      that gets through a final reset is back at the initial state, and an empty run changes
      nothing. */
  function Run(t: Tree, cs: seq<Click>): (r: Option<Tree>)
    ensures cs == [] ==> r == Some(t)
    ensures cs != [] && cs[|cs| - 1] == Reset && r.Some? ==> r.value == Initial
    decreases |cs|
  {
    if cs == [] then Some(t)
    else if Shown(t, cs[0]) then Run(Step(t, cs[0]), cs[1..])
    else None
  }

  /** Clicking through `a` and then `b` is the same as clicking through `a + b`; a run that
      fails part-way stays failed. */
  lemma {:induction false} RunAppend(t: Tree, a: seq<Click>, b: seq<Click>)
    ensures Run(t, a + b) == if Run(t, a).Some? then Run(Run(t, a).value, b) else None
    decreases |a|
  {
    if a != [] {
      assert (a + b)[0] == a[0];
      assert (a + b)[1..] == a[1..] + b;
      if Shown(t, a[0]) {
        RunAppend(Step(t, a[0]), a[1..], b);
      }
    } else {
      assert a + b == b;
    }
  }

  /** The states a run can produce: a capacity answer, always 'yes' or 'no', only alongside a
      priority answer. */
  predicate Inv(t: Tree)
  {
    && (t.capacity.Some? ==> t.priority.Some?)
    && t.capacity != Some(Maybe)
  }

  lemma {:induction false} StepPreservesInv(t: Tree, c: Click)
    requires Inv(t) && Shown(t, c)
    ensures Inv(Step(t, c))
  {
  }

  /** Every state a run from the initial state reaches satisfies the invariant. */
  lemma {:induction false} RunPreservesInv(t: Tree, cs: seq<Click>)
    requires Inv(t)
    ensures Run(t, cs).Some? ==> Inv(Run(t, cs).value)
    decreases |cs|
  {
    if cs != [] && Shown(t, cs[0]) {
      StepPreservesInv(t, cs[0]);
      RunPreservesInv(Step(t, cs[0]), cs[1..]);
    }
  }

  /** Conversely, every state satisfying the invariant is reached by some clicks. */
  lemma {:induction false} InvReachable(t: Tree)
    requires Inv(t)
    ensures exists cs :: Run(Initial, cs) == Some(t)
  {
    match t.priority
    case None =>
      assert Run(Initial, []) == Some(t);
    case Some(p) =>
      if t.capacity == None {
        var cs := [ChoosePriority(p)];
        assert Run(Initial, cs) == Run(Tree(Some(p), None), cs[1..]);
      } else {
        var cs := [ChoosePriority(Yes), ChooseCapacity(t.capacity.value), ChoosePriority(p)];
        var mid := Tree(Some(Yes), t.capacity);
        assert Run(Initial, cs) == Run(Tree(Some(Yes), None), cs[1..]);
        assert Run(Tree(Some(Yes), None), cs[1..]) == Run(mid, cs[2..]);
        assert Run(mid, cs[2..]) == Run(t, []);
      }
  }

  /** A verdict panel. */
  datatype Verdict = SayNo | PauseAndClarify | ConsiderYes | SayNoOrNegotiate

  /** The verdict panels a state renders, top to bottom. */
  function Verdicts(t: Tree): (vs: seq<Verdict>)
    ensures SayNo in vs <==> t.priority == Some(No)
    ensures PauseAndClarify in vs <==> t.priority == Some(Maybe)
    ensures ConsiderYes in vs <==> t.capacity == Some(Yes)
    ensures SayNoOrNegotiate in vs <==> t.capacity == Some(No)
  {
    (if t.priority == Some(No) then [SayNo] else [])
    + (if t.priority == Some(Maybe) then [PauseAndClarify] else [])
    + (if t.capacity == Some(Yes) then [ConsiderYes] else [])
    + (if t.capacity == Some(No) then [SayNoOrNegotiate] else [])
  }

  /** Something the decision tree renders: a button or a verdict panel. */
  datatype Element = Button(click: Click) | Panel(verdict: Verdict)

  /** The decision tree top to bottom: the reset button in the heading row, the three
      priority buttons, the 'no' and 'maybe' panels, the capacity question with its two
      buttons, then the two capacity panels. */
  function Screen(t: Tree): seq<Element>
  {
    ResetRow(t) + PriorityButtons + PriorityPanels(t) + CapacityButtons(t) + CapacityPanels(t)
  }

  function ResetRow(t: Tree): seq<Element>
  {
    if t.priority.Some? || t.capacity.Some? then [Button(Reset)] else []
  }

  const PriorityButtons: seq<Element> :=
    [Button(ChoosePriority(Yes)), Button(ChoosePriority(No)), Button(ChoosePriority(Maybe))]

  function PriorityPanels(t: Tree): seq<Element>
  {
    (if t.priority == Some(No) then [Panel(SayNo)] else [])
    + (if t.priority == Some(Maybe) then [Panel(PauseAndClarify)] else [])
  }

  function CapacityButtons(t: Tree): seq<Element>
  {
    if t.priority == Some(Yes) then [Button(ChooseCapacity(Yes)), Button(ChooseCapacity(No))]
    else []
  }

  function CapacityPanels(t: Tree): seq<Element>
  {
    (if t.capacity == Some(Yes) then [Panel(ConsiderYes)] else [])
    + (if t.capacity == Some(No) then [Panel(SayNoOrNegotiate)] else [])
  }

  /** The buttons on screen are exactly those `Shown` allows, and the panels exactly the
      `Verdicts`. */
  lemma {:induction false} ScreenContents(t: Tree)
    ensures forall c :: Button(c) in Screen(t) <==> Shown(t, c)
    ensures forall v :: Panel(v) in Screen(t) <==> v in Verdicts(t)
  {
    forall c
      ensures Button(c) in Screen(t) <==> Shown(t, c)
    {
      match c
      case ChoosePriority(a) =>
        var i := match a case Yes => 0 case No => 1 case Maybe => 2;
        assert PriorityButtons[i] == Button(c);
      case ChooseCapacity(a) =>
        if Shown(t, c) {
          assert CapacityButtons(t)[if a == Yes then 0 else 1] == Button(c);
        }
      case Reset =>
    }
    forall v
      ensures Panel(v) in Screen(t) <==> v in Verdicts(t)
    {
      assert Panel(v) !in ResetRow(t) + PriorityButtons;
      assert Panel(v) !in CapacityButtons(t);
      match v
      case SayNo =>
        assert Panel(v) in PriorityPanels(t) <==> t.priority == Some(No);
        assert Panel(v) !in CapacityPanels(t);
      case PauseAndClarify =>
        assert Panel(v) in PriorityPanels(t) <==> t.priority == Some(Maybe);
        assert Panel(v) !in CapacityPanels(t);
      case ConsiderYes =>
        assert Panel(v) !in PriorityPanels(t);
        assert Panel(v) in CapacityPanels(t) <==> t.capacity == Some(Yes);
      case SayNoOrNegotiate =>
        assert Panel(v) !in PriorityPanels(t);
        assert Panel(v) in CapacityPanels(t) <==> t.capacity == Some(No);
    }
  }

  /** The capacity panels depend on the capacity answer alone: changing the priority answer
      afterwards neither hides nor changes them. */
  lemma {:induction false} CapacityVerdictIgnoresPriority(t: Tree, p: Option<Answer>)
    ensures ConsiderYes in Verdicts(t) <==> ConsiderYes in Verdicts(t.(priority := p))
    ensures SayNoOrNegotiate in Verdicts(t) <==> SayNoOrNegotiate in Verdicts(t.(priority := p))
  {
  }

  /** Answering 'yes' twice and then switching the priority to 'no' shows "Say No!" and
      "You can consider saying yes!" together. */
  lemma ConflictingVerdictsReachable()
    ensures var cs := [ChoosePriority(Yes), ChooseCapacity(Yes), ChoosePriority(No)];
      && Run(Initial, cs) == Some(Tree(Some(No), Some(Yes)))
      && SayNo in Verdicts(Tree(Some(No), Some(Yes)))
      && ConsiderYes in Verdicts(Tree(Some(No), Some(Yes)))
  {
    var cs := [ChoosePriority(Yes), ChooseCapacity(Yes), ChoosePriority(No)];
    assert Run(Initial, cs) == Run(Tree(Some(Yes), None), cs[1..]);
    assert Run(Tree(Some(Yes), None), cs[1..]) == Run(Tree(Some(Yes), Some(Yes)), cs[2..]);
    assert Run(Tree(Some(Yes), Some(Yes)), cs[2..]) == Run(Tree(Some(No), Some(Yes)), []);
  }

  /** In the initial state only the three priority buttons are rendered, and no verdict. */
  lemma InitialScreen()
    ensures Verdicts(Initial) == []
    ensures forall c :: Shown(Initial, c) <==> c.ChoosePriority?
  {
  }
}

=== FILE: seqs.dfy ===
/** Sequence facts shared by the editor, the task roulette and the tab bar. */
module Seqs {

  /** Index of the first occurrence of `x` in `s` (indexOf). */
  function IndexOf<T(==)>(s: seq<T>, x: T): (i: nat)
    requires x in s
    ensures i < |s| && s[i] == x
    ensures forall j :: 0 <= j < i ==> s[j] != x
  {
    if s[0] == x then 0
    else
      assert s == [s[0]] + s[1..];
      1 + IndexOf(s[1..], x)
  }

  /** No value occurs twice. */
  predicate Distinct<T(==)>(s: seq<T>)
  {
    forall i, j :: 0 <= i < j < |s| ==> s[i] != s[j]
  }

  /** A concatenation without repeats is made of two repeat-free, disjoint halves. */
  lemma {:induction false} DistinctAppend<T>(a: seq<T>, b: seq<T>)
    requires Distinct(a + b)
    ensures Distinct(a) && Distinct(b)
    ensures forall x :: x in a ==> x !in b
  {
    forall i, j | 0 <= i < |a| && 0 <= j < |b|
      ensures a[i] != b[j]
    {
      assert (a + b)[i] == a[i] && (a + b)[|a| + j] == b[j];
    }
    forall i, j | 0 <= i < j < |a|
      ensures a[i] != a[j]
    {
      assert (a + b)[i] == a[i] && (a + b)[j] == a[j];
    }
    forall i, j | 0 <= i < j < |b|
      ensures b[i] != b[j]
    {
      assert (a + b)[|a| + i] == b[i] && (a + b)[|a| + j] == b[j];
    }
  }

  /** A slice of the second half of a concatenation, counted from the join. */
  lemma SliceAfter<T>(a: seq<T>, b: seq<T>, lo: nat, hi: nat)
    requires lo <= hi <= |b|
    ensures (a + b)[|a| + lo..|a| + hi] == b[lo..hi]
  {
    forall k | 0 <= k < hi - lo
      ensures (a + b)[|a| + lo..|a| + hi][k] == b[lo..hi][k]
    {
    }
  }

  /** A slice of the first half of a concatenation. */
  lemma SliceWithin<T>(a: seq<T>, b: seq<T>, lo: nat, hi: nat)
    requires lo <= hi <= |a|
    ensures (a + b)[lo..hi] == a[lo..hi]
  {
    forall k | 0 <= k < hi - lo
      ensures (a + b)[lo..hi][k] == a[lo..hi][k]
    {
    }
  }

  /** `f` applied to each element, the results one after another (Array.prototype.flatMap). */
  function FlatMap<T, U>(f: T -> seq<U>, xs: seq<T>): seq<U>
  {
    if xs == [] then [] else f(xs[0]) + FlatMap(f, xs[1..])
  }

  /** `flatMap` over a concatenation is the concatenation of the two `flatMap`s. */
  lemma {:induction false} FlatMapAppend<T, U>(f: T -> seq<U>, a: seq<T>, b: seq<T>)
    ensures FlatMap(f, a + b) == FlatMap(f, a) + FlatMap(f, b)
  {
    if a == [] {
      assert a + b == b;
    } else {
      FlatMapAppend(f, a[1..], b);
      assert (a + b)[0] == a[0] && (a + b)[1..] == a[1..] + b;
      assert f(a[0]) + (FlatMap(f, a[1..]) + FlatMap(f, b))
        == (f(a[0]) + FlatMap(f, a[1..])) + FlatMap(f, b);
    }
  }

  /** The blocks one after another. */
  function Concat<T>(blocks: seq<seq<T>>): seq<T>
  {
    if blocks == [] then [] else blocks[0] + Concat(blocks[1..])
  }

  /** Where block `i` begins in the concatenation: the summed lengths of the blocks before it. */
  function Offset<T>(blocks: seq<seq<T>>, i: nat): nat
    requires i <= |blocks|
  {
    if i == 0 then 0 else |blocks[0]| + Offset(blocks[1..], i - 1)
  }

  /** Block `i` sits in the concatenation at its offset. */
  lemma {:induction false} ConcatAt<T>(blocks: seq<seq<T>>, i: nat)
    requires i < |blocks|
    ensures Offset(blocks, i) + |blocks[i]| <= |Concat(blocks)|
    ensures Concat(blocks)[Offset(blocks, i)..Offset(blocks, i) + |blocks[i]|] == blocks[i]
  {
    var first := blocks[0];
    var rest := Concat(blocks[1..]);
    if i == 0 {
      assert (first + rest)[..|first|] == first;
    } else {
      ConcatAt(blocks[1..], i - 1);
      assert blocks[1..][i - 1] == blocks[i];
      var lo := Offset(blocks[1..], i - 1);
      SliceAfter(first, rest, lo, lo + |blocks[i]|);
    }
  }

  /** The next block begins where block `i` ends. */
  lemma {:induction false} OffsetNext<T>(blocks: seq<seq<T>>, i: nat)
    requires i < |blocks|
    ensures Offset(blocks, i + 1) == Offset(blocks, i) + |blocks[i]|
  {
    if i > 0 {
      OffsetNext(blocks[1..], i - 1);
      assert blocks[1..][i - 1] == blocks[i];
    }
  }

  /** The last block ends the concatenation. */
  lemma {:induction false} OffsetEnd<T>(blocks: seq<seq<T>>)
    ensures Offset(blocks, |blocks|) == |Concat(blocks)|
  {
    if blocks != [] {
      OffsetEnd(blocks[1..]);
    }
  }

  /** The elements of `xs` whose position differs from `index`, in order: the list
      `xs.filter((_, i) => i !== index)`. */
  function WithoutIndex<T>(xs: seq<T>, index: int): (r: seq<T>)
    ensures 0 <= index < |xs| ==> r == xs[..index] + xs[index + 1..]
    ensures !(0 <= index < |xs|) ==> r == xs
  {
    if xs == [] then []
    else
      var last := |xs| - 1;
      var front := WithoutIndex(xs[..last], index);
      assert xs == xs[..last] + [xs[last]];
      front + (if last == index then [] else [xs[last]])
  }

  /** Dropping one position shortens the list by one and keeps every other element in
      order. */
  lemma {:induction false} WithoutIndexShape<T>(xs: seq<T>, index: int)
    requires 0 <= index < |xs|
    ensures var r := WithoutIndex(xs, index);
      && |r| == |xs| - 1
      && (forall j :: 0 <= j < index ==> r[j] == xs[j])
      && (forall j :: index <= j < |r| ==> r[j] == xs[j + 1])
  {
  }

  /** Dropping one position removes exactly one copy of the element there. */
  lemma {:induction false} WithoutIndexMultiset<T>(xs: seq<T>, index: int)
    requires 0 <= index < |xs|
    ensures multiset(WithoutIndex(xs, index)) + multiset{xs[index]} == multiset(xs)
  {
    MultisetSplit(xs, index);
  }

  lemma {:induction false} MultisetSplit<T>(xs: seq<T>, i: int)
    requires 0 <= i < |xs|
    ensures multiset(xs[..i] + xs[i + 1..]) + multiset{xs[i]} == multiset(xs)
  {
    assert xs == xs[..i] + [xs[i]] + xs[i + 1..];
  }
}

=== FILE: text.dfy ===
/** The JavaScript string operations the toolkit relies on, over `string` (a sequence of
    Unicode scalar values): `join`, `startsWith`, `trim`, and the decimal rendering of a
    non-negative integer inside a template literal. `Split` is not one of them: the toolkit
    never splits a string. It is here only for the model's readers of the generated texts. */
module Text {
  import opened Wrappers
  import opened Seqs

  // ---------------------------------------------------------------------------
  // Searching

  /** The first occurrence of `c` in `a + [c] + b` is the one between the two parts
      whenever `a` holds no `c`. */
  lemma {:induction false} IndexOfAfter(a: string, c: char, b: string)
    requires c !in a
    ensures c in a + [c] + b
    ensures IndexOf(a + [c] + b, c) == |a|
  {
    var s := a + [c] + b;
    assert s[|a|] == c;
    assert forall j :: 0 <= j < |a| ==> s[j] == a[j];
  }

  /** String.prototype.startsWith. */
  predicate StartsWith(s: string, prefix: string)
  {
    |prefix| <= |s| && s[..|prefix|] == prefix
  }

  /** String.prototype.endsWith. */
  predicate EndsWith(s: string, suffix: string)
  {
    |suffix| <= |s| && s[|s| - |suffix|..] == suffix
  }

  // ---------------------------------------------------------------------------
  // Array.prototype.join and String.prototype.split

  /** Array.prototype.join: `parts` with `sep` between neighbours and nothing after the last
      one. */
  function Join(parts: seq<string>, sep: string): string
  {
    if |parts| == 0 then ""
    else if |parts| == 1 then parts[0]
    else parts[0] + sep + Join(parts[1..], sep)
  }

  /** A join of two or more parts opens with the first part and a separator. */
  lemma JoinOpens(parts: seq<string>, sep: string)
    requires |parts| >= 2
    ensures StartsWith(Join(parts, sep), parts[0] + sep)
  {
  }

  /** A join of one or more parts closes with the last part. */
  lemma {:induction false} JoinCloses(parts: seq<string>, sep: string)
    requires |parts| >= 1
    ensures EndsWith(Join(parts, sep), parts[|parts| - 1])
  {
    if |parts| >= 2 {
      var rest := Join(parts[1..], sep);
      JoinCloses(parts[1..], sep);
      var r := parts[0] + sep + rest;
      assert r[|r| - |rest|..] == rest;
    }
  }

  /** True when no part holds the separator character. */
  predicate NoneContains(parts: seq<string>, c: char)
  {
    forall i :: 0 <= i < |parts| ==> c !in parts[i]
  }

  /** Splitting at a one-character separator, with the meaning of JavaScript's `split`: the
      maximal pieces between separators, so a string with `k` separators yields `k + 1`
      pieces. Only the model's readers use it. */
  function Split(s: string, sep: char): (r: seq<string>)
    ensures |r| >= 1
    decreases |s|
  {
    if sep !in s then [s]
    else
      var i := IndexOf(s, sep);
      [s[..i]] + Split(s[i + 1..], sep)
  }

  /** The first piece of a split ends at the first separator. */
  lemma {:induction false} SplitCons(a: string, sep: char, b: string)
    requires sep !in a
    ensures Split(a + [sep] + b, sep) == [a] + Split(b, sep)
  {
    var s := a + [sep] + b;
    IndexOfAfter(a, sep, b);
    assert s[..|a|] == a;
    assert s[|a| + 1..] == b;
  }

  /** Splitting a joined list gives the list back when no part holds the separator. */
  lemma {:induction false} SplitJoin(parts: seq<string>, sep: char)
    requires |parts| >= 1
    requires NoneContains(parts, sep)
    ensures Split(Join(parts, [sep]), sep) == parts
  {
    if |parts| > 1 {
      var rest := Join(parts[1..], [sep]);
      assert Join(parts, [sep]) == parts[0] + [sep] + rest;
      SplitCons(parts[0], sep, rest);
      assert NoneContains(parts[1..], sep) by {
        forall i | 0 <= i < |parts| - 1 ensures sep !in parts[1..][i] {
          assert parts[1..][i] == parts[i + 1];
        }
      }
      SplitJoin(parts[1..], sep);
      assert parts == [parts[0]] + parts[1..];
    }
  }

  /** Each part followed by a newline, the shape a file built with `content += line + '\n'`
      has. */
  function Unlines(lines: seq<string>): (r: string)
    ensures |r| >= |lines|
    ensures lines != [] ==> r[|r| - 1] == '\n'
  {
    if lines == [] then "" else lines[0] + "\n" + Unlines(lines[1..])
  }

  /** A newline-terminated text is the join of its lines followed by one empty piece. */
  lemma {:induction false} UnlinesIsJoin(lines: seq<string>)
    ensures Unlines(lines) == Join(lines + [""], "\n")
  {
    if lines != [] {
      UnlinesIsJoin(lines[1..]);
      assert (lines + [""])[1..] == lines[1..] + [""];
    }
  }

  /** Splitting newline-terminated lines gives the lines and one trailing empty piece. */
  lemma {:induction false} SplitUnlines(lines: seq<string>)
    requires NoneContains(lines, '\n')
    ensures Split(Unlines(lines), '\n') == lines + [""]
  {
    UnlinesIsJoin(lines);
    SplitJoin(lines + [""], '\n');
  }

  // ---------------------------------------------------------------------------
  // String.prototype.trim

  /** The characters `trim` removes: ECMAScript WhiteSpace and LineTerminator. */
  predicate IsWhitespace(c: char)
  {
    || c == ' ' || c == '\t' || c == '\n' || c == '\r'
    || c == '\U{B}' || c == '\U{C}' || c == '\U{A0}' || c == '\U{FEFF}' || c == '\U{1680}'
    || ('\U{2000}' <= c <= '\U{200A}')
    || c == '\U{2028}' || c == '\U{2029}' || c == '\U{202F}' || c == '\U{205F}' || c == '\U{3000}'
  }

  /** True when every character of `s` is whitespace (vacuously for ""). */
  predicate AllWhitespace(s: string)
  {
    forall i :: 0 <= i < |s| ==> IsWhitespace(s[i])
  }

  /** `s` without its leading whitespace. */
  function TrimStart(s: string): (r: string)
    ensures |r| <= |s| && r == s[|s| - |r|..]
    ensures AllWhitespace(s[..|s| - |r|])
    ensures r == [] || !IsWhitespace(r[0])
  {
    if s != [] && IsWhitespace(s[0]) then
      var r := TrimStart(s[1..]);
      assert s[..|s| - |r|] == [s[0]] + s[1..][..|s| - 1 - |r|];
      r
    else s
  }

  /** `s` without its trailing whitespace. */
  function TrimEnd(s: string): (r: string)
    ensures |r| <= |s| && r == s[..|r|]
    ensures AllWhitespace(s[|r|..])
    ensures r == [] || !IsWhitespace(r[|r| - 1])
  {
    if s != [] && IsWhitespace(s[|s| - 1]) then
      var r := TrimEnd(s[..|s| - 1]);
      assert s[|r|..] == s[..|s| - 1][|r|..] + [s[|s| - 1]];
      r
    else s
  }

  /** String.prototype.trim: `s` without leading and trailing whitespace. The result is no
      longer than `s` and has no whitespace at either end; `TrimStart` and `TrimEnd` state
      that only whitespace is cut. */
  function Trim(s: string): (r: string)
    ensures |r| <= |s|
    ensures r == [] || (!IsWhitespace(r[0]) && !IsWhitespace(r[|r| - 1]))
  {
    var t := TrimStart(s);
    var r := TrimEnd(t);
    assert r != [] ==> r[0] == t[0];
    r
  }

  /** Leading whitespace is all `trimStart` removes, so a blank string loses everything. */
  lemma {:induction false} TrimStartBlank(s: string)
    requires AllWhitespace(s)
    ensures TrimStart(s) == []
  {
    if s != [] {
      TrimStartBlank(s[1..]);
    }
  }

  /** The result of `trim` is empty exactly when the input is blank or whitespace only. */
  lemma {:induction false} TrimEmptyIff(s: string)
    ensures Trim(s) == "" <==> AllWhitespace(s)
  {
    var t := TrimStart(s);
    if AllWhitespace(s) {
      TrimStartBlank(s);
    }
    if Trim(s) == "" {
      assert t[0..] == t;
      assert t == [];
      assert s[..|s| - |t|] == s;
    }
  }

  /** Trimming a trimmed string changes nothing. */
  lemma {:induction false} TrimIdempotent(s: string)
    ensures Trim(Trim(s)) == Trim(s)
  {
    var r := Trim(s);
    if r != [] {
      assert TrimStart(r) == r;
      assert TrimEnd(r) == r;
    }
  }

  // ---------------------------------------------------------------------------
  // Decimal numbers in template literals

  predicate IsDigit(c: char)
  {
    '0' <= c <= '9'
  }

  predicate AllDigits(s: string)
  {
    forall i :: 0 <= i < |s| ==> IsDigit(s[i])
  }

  function DigitChar(d: nat): (c: char)
    requires d < 10
    ensures IsDigit(c)
  {
    (48 + d) as char
  }

  function DigitValue(c: char): (d: nat)
    requires IsDigit(c)
    ensures d < 10
  {
    (c as int) - 48
  }

  /** The decimal numeral a template literal produces for a non-negative integer: digits
      only, never empty, and no leading zero except in "0" itself. */
  function NatToString(n: nat): (r: string)
    ensures |r| >= 1 && AllDigits(r)
    ensures r[0] == '0' ==> n == 0
    decreases n
  {
    if n < 10 then [DigitChar(n)]
    else NatToString(n / 10) + [DigitChar(n % 10)]
  }

  /** The value of a string of decimal digits. */
  function DigitsValue(s: string): nat
    requires AllDigits(s)
  {
    if s == [] then 0 else DigitsValue(s[..|s| - 1]) * 10 + DigitValue(s[|s| - 1])
  }

  /** Reads a non-negative decimal numeral; anything else is rejected. */
  function ParseNat(s: string): (r: Option<nat>)
    ensures r.Some? <==> s != "" && AllDigits(s)
  {
    if s != "" && AllDigits(s) then Some(DigitsValue(s)) else None
  }

  /** Reading back the numeral of `n` gives `n`. */
  lemma {:induction false} ParseNatToString(n: nat)
    ensures ParseNat(NatToString(n)) == Some(n)
    decreases n
  {
    var s := NatToString(n);
    if n < 10 {
      assert DigitsValue(s) == DigitsValue([]) * 10 + DigitValue(DigitChar(n));
    } else {
      ParseNatToString(n / 10);
      assert s[..|s| - 1] == NatToString(n / 10);
      assert DigitsValue(s) == DigitsValue(NatToString(n / 10)) * 10 + DigitValue(DigitChar(n % 10));
    }
  }
}

=== FILE: toolkit.dfy ===
/** The application name shown in the header and written into the generated files. */
module Toolkit {
  const ToolkitName := "Time Management Toolkit"
}

=== FILE: wrappers.dfy ===
/** The optional-value datatype shared by the lookups and readers of the toolkit model. */
module Wrappers {

  /** A value that may be absent, standing in for JavaScript's `undefined`. */
  datatype Option<+T> = None | Some(value: T)
}
